=== FILE: README.md ===
# TeraBox downloader core, modelled in Dafny

This project models the core of a small web application that downloads files
shared through TeraBox links. One download runs in three phases:

1. `TeraBoxDownloader.extract_file_info` fetches the share link and derives a
   safe file name from the page.
2. `TeraBoxDownloader.get_download_url` fetches the page the link led to.
   It scans the page with seven URL patterns and returns the first candidate
   that mentions a keyword.
3. `TeraBoxDownloader.download_file` streams that URL into the download
   folder. It counts the bytes written and deletes the target file on any
   error.

`DownloadThread.run` in the web application drives the three phases. It
publishes a status record after each step.

The modules follow the source:

- `Wrappers` holds `Option` and `Result`.
- `Text` covers Python's `str.strip`, substring search, ASCII `lower()`,
  decimal rendering of integers, and the strings `int()` accepts.
- `Http` covers a fetched page and `raise_for_status`.
- `Patterns` is an interpreter for the three regular-expression shapes the
  source uses, with `re.search` (leftmost match) and `re.findall`
  (left-to-right, non-overlapping).
- `FileInfo` covers `extract_file_info`.
- `Resolver` covers `get_download_url`.
- `Transfer` covers `download_file`, over a file system that maps paths to
  byte strings.
- `Pipeline` covers `DownloadThread.run`. It has two versions: the run as
  written, and the run as evidently intended (see Findings).

The network, `urllib.parse.unquote`, the clock, the configured folder and the
MB rendering of the file size are parameters.

## Model

| member | source | states |
|---|---|---|
| `Text.Strip` | terabox_downloader.py:45 | `.strip()` gives the longest slice of the input that begins and ends with a non-space; the result is empty exactly when every character is Python whitespace |
| `Text.IntToDecimal` | terabox_downloader.py:57 | `str()` of the integer timestamp is non-empty and made of digits, starting with a minus sign exactly when the value is negative, with no leading zero (zero is `0`); `IntDecimalRoundTrip` states that the digits read back as the number |
| `Text.DecimalRoundTrip` | terabox_downloader.py:57 | the decimal text of a non-negative timestamp in the fallback name reads back as the same number |
| `Text.IntDecimalRoundTrip` | terabox_downloader.py:57 | for any integer timestamp, the digits after the minus sign of a negative value read back as its magnitude, and the text of a non-negative value reads back as the value |
| `Text.LowerKeepsLowerWord` | terabox_downloader.py:97 | a lower-case keyword contained in a URL is still contained after `.lower()` |
| `Text.InOrderContainsEach` | terabox_downloader.py:89 | a string matching words in order contains each of them |
| `Http.StatusError` | terabox_downloader.py:29 | `raise_for_status` raises exactly for status codes 400-599; the message starts with the code |
| `Http.Get` | terabox_downloader.py:28-29 | a get followed by `raise_for_status` succeeds exactly when the page was fetched with a non-error status, and it yields that page |
| `Patterns.Search` | terabox_downloader.py:43 | `re.search` returns a match placed inside the text; `SearchIsMatch` and `SearchIsLeftmost` state that it is the leftmost match |
| `Patterns.SearchIsMatch` | terabox_downloader.py:43 | what `re.search` returns is a match of the pattern at the position it reports |
| `Patterns.KeyValueNeedsColon` | terabox_downloader.py:36 | the `file_name` key/value pattern finds nothing in a text without a `:`, whatever keys the text mentions |
| `Patterns.SearchIsLeftmost` | terabox_downloader.py:43 | if the pattern matches at some position, `re.search` finds a match starting there or earlier |
| `Patterns.MatchShape` | terabox_downloader.py:35-38 | a match begins with the pattern's literal lead, and its captured group contains none of the characters its negated class excludes |
| `Patterns.LinkShape` | terabox_downloader.py:86-89 | a link-pattern capture starts with `http://` or `https://`, and the rest contains the pattern's words in order |
| `Patterns.FindAll` | terabox_downloader.py:93 | every `re.findall` capture is non-empty and avoids the pattern's stop characters |
| `Patterns.ChainInOrder` | terabox_downloader.py:93 | `re.findall` reports matches left to right, each ending before the next begins |
| `Patterns.FindAllStartsWithSearch` | terabox_downloader.py:93 | `re.findall` is empty exactly when `re.search` finds nothing; otherwise its first match is `re.search`'s match |
| `Patterns.FindAllCovers` | terabox_downloader.py:93 | every position where the pattern matches lies inside some match `re.findall` reports, so no match is skipped except by overlap |
| `FileInfo.FirstCapture` | terabox_downloader.py:41-47 | the filename patterns are tried in order; the chosen capture belongs to the first pattern that matches, and none of the earlier ones matched |
| `FileInfo.LaterPatternsNotConsulted` | terabox_downloader.py:47 | once a pattern matches the loop breaks, so patterns appended after it change nothing |
| `FileInfo.Sanitize` | terabox_downloader.py:52 | `re.sub` replaces each of the nine reserved characters (angle brackets, colon, double quote, both slashes, vertical bar, question mark, asterisk) by `_`, keeps every other character in place, and keeps the length |
| `FileInfo.SanitizeKeepsSafe` | terabox_downloader.py:52 | a name without reserved characters passes through unchanged |
| `FileInfo.Finish` | terabox_downloader.py:51-55 | the cleaned name is safe; it is the sanitized decoded name, with `.bin` appended exactly when the decoded name has no dot |
| `FileInfo.Fallback` | terabox_downloader.py:57 | the fallback name is safe and is `terabox_file_`, then the decimal text of the clock reading, then `.bin` |
| `FileInfo.FallbackDistinct` | terabox_downloader.py:57 | two clock readings that give the same fallback name are the same reading |
| `FileInfo.ExtractFilename` | terabox_downloader.py:41-57 | the chosen name is always non-empty, has a dot and has no reserved character; without a match it is the fallback |
| `FileInfo.FirstMatchingPatternDecides` | terabox_downloader.py:43-57 | the first matching pattern's stripped capture decides the name: an empty capture falls back, otherwise the name is the finished decoding of the capture |
| `FileInfo.DecodedCharactersSanitized` | terabox_downloader.py:51-52 | when the decoded name has a dot, position by position the name is the decoded capture with each reserved character replaced by `_` |
| `FileInfo.NoMatchWithoutLead` | terabox_downloader.py:43 | a pattern whose literal lead is absent from the page never matches |
| `FileInfo.TitleOnlyPage` | terabox_downloader.py:34-57 | a page that holds only `<title>NAME</title>`, for any safe, trimmed NAME that `unquote` leaves alone, yields NAME as the file name; the JSON patterns miss because the page has no `"` and no `:` |
| `FileInfo.TitleScenario` | terabox_downloader.py:37 | the page `<title>My Video.mp4</title>` yields the name `My Video.mp4` |
| `FileInfo.ExtractFileInfo` | terabox_downloader.py:20-71 | extraction succeeds exactly when the page is fetched with a non-error status; then the name is the one `ExtractFilename` derives from the page text (so it is safe), the final URL is the page's URL after redirects and the content length is the page text's length; a network failure is reported with its own message |
| `Resolver.Unescape` | terabox_downloader.py:96 | `.replace('\\/', '/')` never lengthens the text; `UnescapeEscape`, `UnescapeConcat` and `UnescapeKeepsWord` state what it keeps |
| `Resolver.UnescapeEscape` | terabox_downloader.py:96 | replacing `\/` by `/` undoes JSON's escaping of slashes for every URL |
| `Resolver.UnescapeConcat` | terabox_downloader.py:96 | unescaping distributes over concatenation when the seam does not split a `\/` |
| `Resolver.UnescapeKeepsWord` | terabox_downloader.py:96-97 | a keyword without `\` or `/` found in a raw match is still found after unescaping |
| `Resolver.AcceptedNonEmpty` | terabox_downloader.py:97 | a URL that passes the keyword test is non-empty |
| `Resolver.FirstAccepted` | terabox_downloader.py:94-99 | the result is absent exactly when no candidate passes the keyword test; otherwise it is the first candidate that passes |
| `Resolver.FirstAcceptedCons` | terabox_downloader.py:94-99 | the first candidate is returned if it passes, and the search otherwise continues with the rest |
| `Resolver.FirstCandidate` | terabox_downloader.py:92-102 | the nested loop over patterns and their `findall` matches returns the first unescaped match, in pattern order then match order, that passes the keyword test |
| `Resolver.FindDownloadUrl` | terabox_downloader.py:80-102 | the scan with the seven URL patterns returns the first accepted candidate, which passes the keyword test |
| `Resolver.PageUrl` | terabox_downloader.py:73-106 | an unreachable page or an error status gives no URL; a URL given passes the keyword test and is non-empty |
| `Resolver.GetDownloadUrl` | terabox_downloader.py:73-106 | on a fetched page with a non-error status, the URL is the first accepted candidate of the seven patterns |
| `Resolver.CandidatesInclude` | terabox_downloader.py:92-96 | every unescaped `findall` match of every pattern is among the candidates the loop visits |
| `Resolver.LinkCaptureAccepted` | terabox_downloader.py:86-89 | every capture of the four link patterns passes the keyword test after unescaping |
| `Resolver.LinkMatchYieldsUrl` | terabox_downloader.py:86-99 | if any link pattern matches anywhere on the page, a download URL is found |
| `Transfer.Join` | terabox_downloader.py:114 | `os.path.join` ends with the file name; an absolute name replaces the folder; otherwise the result starts with the folder |
| `Transfer.JoinedNameIsBasename` | terabox_downloader.py:114 | a non-empty name without `/` joined to any folder has that name as its base name |
| `Transfer.TotalIsConcatLength` | terabox_downloader.py:126-131 | counting only non-empty chunks gives the length of everything the stream delivered |
| `Transfer.IntError` | terabox_downloader.py:124 | the `int()` error message ends with the quoted header value when that value is at most 198 characters, and otherwise holds its first 199 characters, the quoted text cut at 200 |
| `Transfer.Precheck` | terabox_downloader.py:120-124 | nothing is raised before the file is opened exactly when the stream connects, the status is not 4xx/5xx, and any `content-length` header parses as an integer within the 4300-digit limit; a good response fails only on the header, with the limit message for a well-formed value and the invalid-literal message otherwise |
| `Transfer.LongLengthRejected` | terabox_downloader.py:124 | a good response whose `content-length` is more than 4300 plain digits fails before the file is opened, with the limit message |
| `Transfer.Receive` | terabox_downloader.py:119-131 | the file is opened exactly when the prechecks and the open pass; once it is opened, it holds every chunk in order, and the count returned is its length |
| `Transfer.DownloadFile` | terabox_downloader.py:108-149 | success exactly when connecting, the checks, the open and the stream all pass; on success the file at the joined path holds the delivered bytes, the reported size is its length, and no other file changes; on any failure the joined path is removed (even a file that was there before) and the stage's error message is reported |
| `Pipeline.ForwardCons` | app.py:8-77 | a record of an earlier phase put before a forward-moving history keeps it forward-moving |
| `Pipeline.ForwardOrdered` | app.py:8-77 | in a published history, no record is of a later phase than one after it, and only the last record can be an outcome |
| `Pipeline.DeliveredOutcome` | app.py:58-71 | phase 3 always ends in an outcome: the completion record exactly when the download succeeds, a bare error record otherwise |
| `Pipeline.HistoryOutcome` | app.py:10-77 | every history a run can publish starts with "Extracting", moves forward, and ends in a completed or bare error record; it completes exactly when extraction succeeded, a URL was found and the download succeeded |
| `Pipeline.RunAsWritten` | app.py:8-77 | as written, no run completes and no file is touched: an extraction failure publishes "Extracting" then "Error extracting file info"; otherwise the run publishes "Extracting", "Finding download URL" with the file name, then "Unexpected error" with the `TypeError` the two-argument call raises |
| `Pipeline.Extract` | app.py:18 | step 1 is `extract_file_info` on the share link, and a successful result carries a safe name |
| `Pipeline.Locate` | app.py:33-36 | step 2, as intended, is `get_download_url` on the final URL; a URL found passes the keyword test and is non-empty |
| `Pipeline.Deliver` | app.py:52-71 | when every stage of the download passes, the joined path holds all the bytes the stream delivered, no other file changes, and the record is the completion record with the file name, that path and its size on disk; otherwise the joined path is gone and the record is a bare error whose message starts with "Download failed: " |
| `Pipeline.AfterSearch` | app.py:38-71 | after "Finding download URL", a missing or empty URL gives exactly the no-URL error and no file change; otherwise exactly "Starting download..." follows, then the phase 3 outcome that `Deliver` states, completed or failed |
| `Pipeline.Publish` | app.py:10-71 | the published history is exactly one of three: "Extracting" then the extraction error; "Extracting", "Finding download URL", the no-URL error; or "Extracting", "Finding download URL", "Starting download..." and the phase 3 outcome with its file-system effect; it moves forward, ends in a completed or a bare error record, and completes exactly when extraction succeeded, a URL was found and the download succeeded |
| `Pipeline.RunIntended` | app.py:8-77 | with the call fixed to pass only the final URL, phases 1 and 2 are `extract_file_info` on the share link and `get_download_url` on the final URL, and the history is one of the three shapes `Publish` states: a failed download ends with "Download failed: " after "Starting download..." and removes the target file; the run completes exactly when all three phases succeed, with the safe file name, its path and size on disk and every other file unchanged |

## Left out

- Network access, redirects and timeouts are parameters. A page fetch and a stream connection are functions from URL to outcome; the `timeout=` values and request headers are not modelled.
- `urllib.parse.unquote` is a parameter with no contract. Every filename property holds for any decoder.
- The clock (`int(time.time())`) is a parameter `now`.
- The `{size_mb:.2f}` rendering of the file size is a parameter `sizeText`, because floating-point formatting is not modelled.
- `print` logging is not modelled. Each `print` is taken never to raise; `FileInfo.ExtractFileInfo` relies on this when it states that a fetched page with a good status always succeeds.
- The status dictionary shared between threads is not modelled. Each run's sequence of published records is modelled instead. Thread start-up, the Flask routes and the browser UI (`static/`) are left out.
- Regular expressions are not modelled in general. A small interpreter covers the three shapes the source uses: a lead, a negated class run and a closing literal; the JSON key/value shape with optional quote and `\s*`; and the `https?://` link shape with lazy runs up to keywords.
- `Text.Lower`: covers ASCII only. The keywords are ASCII, and no non-ASCII character lowers to an ASCII letter except the Kelvin sign and dotted capital I, which are not modelled.
- `Text.ParsesAsInt`: follows `int()` for decimal text with sign, digit-group underscores, surrounding whitespace and the default limit of 4300 digits of CPython 3.11 and later. Non-ASCII digits and a limit changed with `sys.set_int_max_str_digits` are not modelled.
- `Transfer.Precheck`: a malformed `content-length` whose leading run of digits already exceeds 4300 digits gets the invalid-literal message here; CPython checks the limit first and reports the limit message for it. Whether the call fails is the same either way.
- `Transfer.IntError`: quotes the header value with plain single quotes instead of Python's `repr` escaping.
- `Http.StatusError`: the contract states only that the message starts with the status code. The rest of requests' wording ("Client Error"/"Server Error", reason, URL) is in the definition but not in the contract.
- The chunk size (8192) only sets how the stream is split. The stream is modelled as the chunk sequence it yields, so the value does not appear.
- Write errors in the middle of the stream are folded into the stream's `breaksWith` error. A failing `open` is a parameter. A failing `os.remove` is not modelled.
- Windows path joining is not modelled; `os.path.join` is POSIX.
- `Pipeline.Deliver`: a failed download's record is stated only up to its "Download failed: " prefix. The stage error that follows it is the one `Transfer.DownloadFile` states.
- `Pipeline.RunAsWritten`: the exact `TypeError` text depends on the Python version. The text of recent CPython releases is used.
- The application's request validation, listing and file-serving endpoints are outside this model.
- The code does not infer an extension from keywords on the page; a name without a dot gets `.bin`.
- The code has no URL exclusion list and no length heuristic; the only URL filter is the four keywords.
- The transfer does not reject an HTML error page or an empty download; an empty stream is saved as an empty file and reported as a success.
- No request is retried.
- A fetch is a function of its URL, so fetching the same URL twice gives the same outcome. When the share link does not redirect, the page fetch inside `get_download_url` repeats the outcome of the fetch inside `extract_file_info`; a page that changes between the two requests is not modelled.
- The file system has no directories. A name of `.` or `..` passes the filename clean-up and is treated as an ordinary file in the folder; in the source, `os.path.join` would then name the folder itself or its parent.
- `download_file` deletes whatever file is at the target path when any step fails, including a file that existed before the call and was never opened; the model states this as it is.

## Findings

| source | as written | input that shows it | evidently intended | confidence | as-written member | corrected member |
|---|---|---|---|---|---|---|
| app.py:33-36 | `get_download_url` is called with the final URL and `file_info.get('content')`, but it takes only the page URL (terabox_downloader.py:73), so the call raises `TypeError` and every run whose extraction succeeds ends with "Unexpected error"; no download ever completes | any share link whose extraction succeeds, e.g. a page `<title>My Video.mp4</title>` with status 200 | call `get_download_url(file_info['final_url'])` so the run can find a URL and download the file | high, not executed | `Pipeline.RunAsWritten` | `Pipeline.RunIntended` |

=== FILE: fileinfo.dfy ===
/** `TeraBoxDownloader.extract_file_info`: fetch the share page and derive a
    file name from it. */
module FileInfo {
  import opened Wrappers
  import opened Text
  import opened Http
  import opened Patterns

  /** The four filename patterns, in the order they are tried. */
  const FilenamePatterns: seq<Pattern> := [
    Delimited("\"filename\":\"", '"', "\""),
    KeyValue("file_name"),
    Delimited("<title>", '<', "</title>"),
    Delimited("<meta property=\"og:title\" content=\"", '"', "\"")
  ]

  /** The characters replaced by `_`: those a file name may not contain on
      common file systems. */
  predicate Reserved(c: char) {
    || c == '<' || c == '>' || c == ':' || c == '"' || c == '/'
    || c == '\\' || c == '|' || c == '?' || c == '*'
  }

  /** What every name the extractor hands out satisfies: non-empty, with a
      dot, and free of reserved characters. */
  predicate SafeName(name: string) {
    && |name| > 0
    && '.' in name
    && forall i :: 0 <= i < |name| ==> !Reserved(name[i])
  }

  /** The first pattern of `pats` that matches `text`: its index and the text
      its group captured. */
  function FirstCapture(pats: seq<Pattern>, text: string): (r: Option<(nat, string)>)
    ensures r.Some? ==> var (k, c) := r.value;
              && k < |pats|
              && Search(pats[k], text).Some?
              && c == Capture(text, Search(pats[k], text).value)
              && forall j :: 0 <= j < k ==> Search(pats[j], text).None?
    ensures r.None? ==> forall j :: 0 <= j < |pats| ==> Search(pats[j], text).None?
  {
    if pats == [] then None
    else
      match Search(pats[0], text)
      case Some(m) => Some((0, Capture(text, m)))
      case None =>
        assert forall j :: 0 < j < |pats| ==> pats[j] == pats[1..][j - 1];
        match FirstCapture(pats[1..], text)
        case None => None
        case Some((k, c)) => Some((k + 1, c))
  }

  /** Once a pattern matches, patterns after it are never consulted: adding
      more patterns at the end changes nothing. */
  lemma {:induction false} LaterPatternsNotConsulted(pats: seq<Pattern>, more: seq<Pattern>, text: string)
    requires FirstCapture(pats, text).Some?
    ensures FirstCapture(pats + more, text) == FirstCapture(pats, text)
  {
    assert (pats + more)[0] == pats[0];
    if Search(pats[0], text).None? {
      assert (pats + more)[1..] == pats[1..] + more;
      LaterPatternsNotConsulted(pats[1..], more, text);
    }
  }

  /** `re.sub(r'[<>:"/\\|?*]', '_', s)`. */
  function Sanitize(s: string): (r: string)
    ensures |r| == |s|
    ensures forall i :: 0 <= i < |r| ==> !Reserved(r[i])
    ensures forall i :: 0 <= i < |s| ==> !Reserved(s[i]) ==> r[i] == s[i]
    ensures forall i :: 0 <= i < |s| ==> Reserved(s[i]) ==> r[i] == '_'
  {
    if s == [] then []
    else [if Reserved(s[0]) then '_' else s[0]] + Sanitize(s[1..])
  }

  /** A name without reserved characters is left as it is. */
  lemma SanitizeKeepsSafe(s: string)
    requires forall i :: 0 <= i < |s| ==> !Reserved(s[i])
    ensures Sanitize(s) == s
  {
    assert forall i :: 0 <= i < |s| ==> Sanitize(s)[i] == s[i];
  }

  /** The cleaning applied to a decoded name: reserved characters become `_`,
      and `.bin` is added when the name has no dot. */
  function Finish(decoded: string): (r: string)
    ensures SafeName(r)
    ensures |decoded| <= |r|
    ensures '.' in decoded ==> r == Sanitize(decoded)
    ensures '.' !in decoded ==> r == Sanitize(decoded) + ".bin"
  {
    var safe := Sanitize(decoded);
    assert '.' in decoded <==> '.' in safe by {
      assert forall i :: 0 <= i < |decoded| ==> (decoded[i] == '.' <==> safe[i] == '.');
    }
    if '.' in safe then safe else safe + ".bin"
  }

  /** `f"terabox_file_{int(time.time())}.bin"`, with `now` the truncated time. */
  function Fallback(now: int): (r: string)
    ensures SafeName(r)
    ensures "terabox_file_" <= r
    ensures |r| > 17 && r[|r| - 4..] == ".bin" && r[13..|r| - 4] == IntToDecimal(now)
  {
    var r := "terabox_file_" + IntToDecimal(now) + ".bin";
    assert r[|r| - 4] == '.';
    r
  }

  /** Different clock readings give different fallback names: the name
      determines the time it was made at. */
  lemma FallbackDistinct(a: int, b: int)
    requires Fallback(a) == Fallback(b)
    ensures a == b
  {
    var r := Fallback(a);
    assert IntToDecimal(a) == r[13..|r| - 4] == IntToDecimal(b);
    IntDecimalRoundTrip(a);
    IntDecimalRoundTrip(b);
  }

  /** The name the extractor settles on for page text `text`. `unquote` is
      `urllib.parse.unquote`, `now` the truncated `time.time()`. The first
      matching pattern decides: its capture is stripped, and if nothing is
      left the fallback name is used without trying the next pattern. */
  function ExtractFilename(text: string, unquote: string -> string, now: int): (name: string)
    ensures SafeName(name)
    ensures FirstCapture(FilenamePatterns, text).None? ==> name == Fallback(now)
  {
    match FirstCapture(FilenamePatterns, text)
    case None => Fallback(now)
    case Some((_, capture)) =>
      var stripped := Strip(capture);
      if stripped != [] then Finish(unquote(stripped)) else Fallback(now)
  }

  /** The name comes from the first pattern that matches, whatever later
      patterns would give: a capture that is all white space yields the
      fallback name, otherwise the decoded, cleaned capture. */
  lemma FirstMatchingPatternDecides(text: string, unquote: string -> string, now: int, k: nat)
    requires k < |FilenamePatterns|
    requires Search(FilenamePatterns[k], text).Some?
    requires forall j :: 0 <= j < k ==> Search(FilenamePatterns[j], text).None?
    ensures var c := Capture(text, Search(FilenamePatterns[k], text).value);
            && (Strip(c) == [] ==> ExtractFilename(text, unquote, now) == Fallback(now))
            && (Strip(c) != [] ==> ExtractFilename(text, unquote, now) == Finish(unquote(Strip(c))))
  {
    var r := FirstCapture(FilenamePatterns, text);
    assert r.Some?;
    assert r.value.0 == k;
  }

  /** Reserved characters produced by decoding are replaced too, since
      decoding happens before replacement: whatever the decoder returns, the
      name is safe, and a decoder that keeps the capture's dot keeps every
      safe character in place. */
  lemma DecodedCharactersSanitized(text: string, unquote: string -> string, now: int)
    requires FirstCapture(FilenamePatterns, text).Some?
    requires var d := unquote(Strip(FirstCapture(FilenamePatterns, text).value.1));
             Strip(FirstCapture(FilenamePatterns, text).value.1) != [] && '.' in d
    ensures var d := unquote(Strip(FirstCapture(FilenamePatterns, text).value.1));
            var name := ExtractFilename(text, unquote, now);
            && |name| == |d|
            && forall i :: 0 <= i < |d| ==> name[i] == (if Reserved(d[i]) then '_' else d[i])
  {
  }

  /** A pattern whose leading literal does not occur in the text cannot match it. */
  lemma NoMatchWithoutLead(p: Pattern, s: string)
    requires !Contains(s, Lead(p))
    ensures Search(p, s).None?
  {
    forall j | 0 <= j <= |s| && MatchAt(p, s, j).Some?
      ensures OccursAt(s, Lead(p), j)
    {
      MatchShape(p, s, j);
    }
    SearchIsMatch(p, s);
  }

  /** A word that starts with a character the text lacks does not occur in it. */
  lemma AbsentFirstChar(s: string, w: string)
    requires |w| > 0
    requires forall i :: 0 <= i < |s| ==> s[i] != w[0]
    ensures !Contains(s, w)
  {
    forall i: nat | i <= |s|
      ensures !OccursAt(s, w, i)
    {
      if i + |w| <= |s| {
        assert s[i..i + |w|][0] == s[i];
      }
    }
  }

  /** A slice inside the title text is a slice of the name. */
  lemma TitleSlice(name: string, i: nat, n: nat)
    requires 7 <= i && i + n <= 7 + |name|
    ensures ("<title>" + name + "</title>")[i..i + n] == name[i - 7..i - 7 + n]
  {
  }

  /** On a title-only page the first two filename patterns find nothing:
      the page holds neither a `"` nor a `:`. */
  lemma TitlePageMissesJsonPatterns(name: string)
    requires SafeName(name)
    ensures Search(FilenamePatterns[0], "<title>" + name + "</title>").None?
    ensures Search(FilenamePatterns[1], "<title>" + name + "</title>").None?
  {
    var text := "<title>" + name + "</title>";
    assert forall i :: 0 <= i < |text| ==> text[i] != '"' && text[i] != ':' by {
      assert forall i :: 7 <= i < 7 + |name| ==> text[i] == name[i - 7];
    }
    AbsentFirstChar(text, "\"filename\":\"");
    NoMatchWithoutLead(FilenamePatterns[0], text);
    KeyValueNeedsColon("file_name", text);
  }

  /** On a title-only page the `<title>` pattern captures the whole name. */
  lemma TitlePageMatchesTitle(name: string)
    requires SafeName(name)
    ensures Search(FilenamePatterns[2], "<title>" + name + "</title>")
            == Some(Match(0, 7, 7 + |name|, 15 + |name|))
  {
    var text := "<title>" + name + "</title>";
    var p := FilenamePatterns[2];
    OccursInConcat([], "<title>", name + "</title>");
    assert [] + "<title>" + (name + "</title>") == text;
    OccursInConcat("<title>" + name, "</title>", []);
    assert "<title>" + name + "</title>" + [] == text;
    assert forall i :: 7 <= i < 7 + |name| ==> text[i] == name[i - 7];
    RunEndIs(text, 7, {'<'}, 7 + |name|);
    assert MatchAt(p, text, 0) == Some(Match(0, 7, 7 + |name|, 15 + |name|));
    MatchesAt(p, text, 0);
  }

  /** A page whose only signal is a `<title>` that is already a safe name
      with an extension keeps that name unchanged. */
  lemma TitleOnlyPage(name: string, unquote: string -> string, now: int)
    requires SafeName(name)
    requires !IsSpace(name[0]) && !IsSpace(name[|name| - 1])
    requires unquote(name) == name
    ensures ExtractFilename("<title>" + name + "</title>", unquote, now) == name
  {
    var text := "<title>" + name + "</title>";
    TitlePageMissesJsonPatterns(name);
    TitlePageMatchesTitle(name);
    TitleSlice(name, 7, |name|);
    assert Strip(name) == name by {
      assert SpaceEnd(name, 0) == 0;
      assert SpaceStart(name, 0, |name|) == |name|;
    }
    assert forall j :: 0 <= j < 2 ==> Search(FilenamePatterns[j], text).None? by {
      forall j | 0 <= j < 2
        ensures Search(FilenamePatterns[j], text).None?
      {
        assert j == 0 || j == 1;
      }
    }
    FirstMatchingPatternDecides(text, unquote, now, 2);
    SanitizeKeepsSafe(name);
  }

  /** The name of the example page is safe. */
  lemma ExampleNameQualifies()
    ensures SafeName("My Video.mp4")
  {
    var name := "My Video.mp4";
    assert name[8] == '.';
    assert !Reserved(name[0]) && !Reserved(name[1]) && !Reserved(name[2]) && !Reserved(name[3]);
    assert !Reserved(name[4]) && !Reserved(name[5]) && !Reserved(name[6]) && !Reserved(name[7]);
    assert !Reserved(name[8]) && !Reserved(name[9]) && !Reserved(name[10]) && !Reserved(name[11]);
  }

  /** The page `<title>My Video.mp4</title>` yields the name `My Video.mp4`. */
  lemma TitleScenario(unquote: string -> string, now: int)
    requires unquote("My Video.mp4") == "My Video.mp4"
    ensures ExtractFilename("<title>My Video.mp4</title>", unquote, now) == "My Video.mp4"
  {
    var name := "My Video.mp4";
    ExampleNameQualifies();
    assert "<title>" + name + "</title>" == "<title>My Video.mp4</title>";
    TitleOnlyPage(name, unquote, now);
  }

  /** What `extract_file_info` returns on success. */
  datatype FileInfo = FileInfo(filename: string, finalUrl: string, contentLength: nat)

  /** `extract_file_info(url)` given the outcome of fetching `url`. Every
      failure is the fetch's or `raise_for_status()`'s. The progress lines
      it prints are taken never to raise; with that, nothing after the fetch
      can raise, so a fetched page with a good status always succeeds. */
  function ExtractFileInfo(fetch: Fetch, unquote: string -> string, now: int): (r: Result<FileInfo, string>)
    ensures r.Success? <==> fetch.Fetched? && !(400 <= fetch.page.status < 600)
    ensures r.Success? ==> && r.value.filename == ExtractFilename(fetch.page.text, unquote, now)
                           && SafeName(r.value.filename)
                           && r.value.finalUrl == fetch.page.url
                           && r.value.contentLength == |fetch.page.text|
    ensures fetch.Unreachable? ==> r == Failure(fetch.error)
  {
    match Get(fetch)
    case Failure(e) => Failure(e)
    case Success(page) =>
      Success(FileInfo(ExtractFilename(page.text, unquote, now), page.url, |page.text|))
  }
}

=== FILE: http.dfy ===
/** What the model needs of the HTTP client: the outcome of one GET and the
    status check `raise_for_status()` that the downloader runs after it. */
module Http {
  import opened Wrappers
  import opened Text

  /** A page that came back: the URL after redirects, the status line and the
      decoded body (`response.text`). */
  datatype Page = Page(url: string, status: int, reason: string, text: string)

  /** The outcome of `session.get(url)`: a page, or the text of the exception
      the client raised (connection refused, timeout, TLS failure, ...). */
  datatype Fetch = Fetched(page: Page) | Unreachable(error: string)

  /** `raise_for_status()`: a 4xx or 5xx status raises an error whose text
      names the status, the reason and the URL; every other status passes. */
  function StatusError(status: int, reason: string, url: string): (e: Option<string>)
    ensures e.Some? <==> 400 <= status < 600
    ensures e.Some? ==> IntToDecimal(status) <= e.value
  {
    if 400 <= status < 500 then
      Some(IntToDecimal(status) + " Client Error: " + reason + " for url: " + url)
    else if 500 <= status < 600 then
      Some(IntToDecimal(status) + " Server Error: " + reason + " for url: " + url)
    else
      None
  }

  /** A GET followed by `raise_for_status()`: the page, or the text of
      whichever of the two raised. */
  function Get(f: Fetch): (r: Result<Page, string>)
    ensures r.Success? <==> f.Fetched? && !(400 <= f.page.status < 600)
    ensures r.Success? ==> r.value == f.page
  {
    match f
    case Unreachable(e) => Failure(e)
    case Fetched(p) =>
      match StatusError(p.status, p.reason, p.url)
      case Some(e) => Failure(e)
      case None => Success(p)
  }
}

=== FILE: patterns.dfy ===
/** The regular expressions of the downloader, as a small interpreter for the
    three shapes they take. Each shape is deterministic on the text it is
    given (no alternative way of matching survives backtracking), so a match
    at a position is a function of the text and the position.

    - `Delimited(open, x, close)` is `open([^x]+)close` where `close` starts
      with `x`: the capture is the longest non-empty run without `x` after
      `open`, and `close` must follow it.
    - `KeyValue(key)` is `key["']?:\s*["']([^"']+)["']`.
    - `Link(open, [w1, ..., wn])` is `open(https?://[^"]*?w1...[^"]*?wn[^"]*)"`:
      the capture is the run without `"` after `open`; it must start with a
      scheme, hold the words in order after it, and be closed by `"`. */
module Patterns {
  import opened Wrappers
  import opened Text

  datatype Pattern =
    | Delimited(open: string, stop: char, close: string)
    | KeyValue(key: string)
    | Link(open: string, words: seq<string>)

  /** The literal a match of `p` starts with. */
  function Lead(p: Pattern): string {
    match p
    case Delimited(open, _, _) => open
    case KeyValue(key) => key
    case Link(open, _) => open
  }

  /** The characters a capture of `p` never contains. */
  function Stop(p: Pattern): set<char> {
    match p
    case Delimited(_, stop, _) => {stop}
    case KeyValue(_) => {'"', '\''}
    case Link(_, _) => {'"'}
  }

  /** One match: it spans `start..end` of the text and captures `capStart..capEnd`. */
  datatype Match = Match(start: nat, capStart: nat, capEnd: nat, end: nat)

  /** The match lies inside `s` with a non-empty capture inside its span. */
  predicate Placed(s: string, m: Match) {
    m.start <= m.capStart < m.capEnd <= m.end <= |s|
  }

  /** The text group 1 of the match captured. */
  function Capture(s: string, m: Match): string
    requires Placed(s, m)
  {
    s[m.capStart..m.capEnd]
  }

  predicate IsQuote(c: char) {
    c == '"' || c == '\''
  }

  /** End of the longest run starting at `i` of characters outside `stop`. */
  function RunEnd(s: string, i: nat, stop: set<char>): (j: nat)
    requires i <= |s|
    ensures i <= j <= |s|
    ensures forall k :: i <= k < j ==> s[k] !in stop
    ensures j == |s| || s[j] in stop
    decreases |s| - i
  {
    if i == |s| || s[i] in stop then i else RunEnd(s, i + 1, stop)
  }

  /** `RunEnd` is the end of the run, wherever that is known to be. */
  lemma {:induction false} RunEndIs(s: string, i: nat, stop: set<char>, j: nat)
    requires i <= j <= |s|
    requires forall k :: i <= k < j ==> s[k] !in stop
    requires j == |s| || s[j] in stop
    ensures RunEnd(s, i, stop) == j
    decreases j - i
  {
    if i < j {
      RunEndIs(s, i + 1, stop, j);
    }
  }

  /** Position of the opening quote of `["']?:\s*["']` when that part matches
      at `j`. An optional quote that is present must be taken, since `:` cannot
      match a quote, so there is no choice to backtrack into. */
  function ValueQuote(s: string, j: nat): (q: Option<nat>)
    requires j <= |s|
    ensures q.Some? ==> j < q.value < |s| && IsQuote(s[q.value])
  {
    var c := if j < |s| && IsQuote(s[j]) then j + 1 else j;
    if c < |s| && s[c] == ':' then
      var q := SpaceEnd(s, c + 1);
      if q < |s| && IsQuote(s[q]) then Some(q) else None
    else
      None
  }

  /** Length of the `https?://` scheme `u` starts with, 0 if none. */
  function SchemeLength(u: string): (n: nat)
    ensures n <= |u|
    ensures n > 0 ==> OccursAt(u, "http://", 0) || OccursAt(u, "https://", 0)
  {
    if OccursAt(u, "https://", 0) then 8 else if OccursAt(u, "http://", 0) then 7 else 0
  }

  /** `open([^x]+)close` at position `i`. */
  function DelimitedAt(s: string, i: nat, open: string, stop: char, close: string): (r: Option<Match>)
    requires i <= |s|
    ensures r.Some? ==> r.value.start == i && Placed(s, r.value)
  {
    if OccursAt(s, open, i) then
      var a := i + |open|;
      var b := RunEnd(s, a, {stop});
      if a < b && OccursAt(s, close, b) then Some(Match(i, a, b, b + |close|)) else None
    else None
  }

  /** `key["']?:\s*["']([^"']+)["']` at position `i`. */
  function KeyValueAt(s: string, i: nat, key: string): (r: Option<Match>)
    requires i <= |s|
    ensures r.Some? ==> r.value.start == i && Placed(s, r.value)
  {
    if OccursAt(s, key, i) then
      match ValueQuote(s, i + |key|)
      case None => None
      case Some(q) =>
        var b := RunEnd(s, q + 1, {'"', '\''});
        if q + 1 < b < |s| then Some(Match(i, q + 1, b, b + 1)) else None
    else None
  }

  /** `open(https?://[^"]*?w1...[^"]*?wn[^"]*)"` at position `i`. */
  function LinkAt(s: string, i: nat, open: string, words: seq<string>): (r: Option<Match>)
    requires i <= |s|
    ensures r.Some? ==> r.value.start == i && Placed(s, r.value)
  {
    if OccursAt(s, open, i) then
      var a := i + |open|;
      var b := RunEnd(s, a, {'"'});
      var n := SchemeLength(s[a..b]);
      if 0 < n && ContainsInOrder(s[a..b][n..], words) && b < |s|
      then Some(Match(i, a, b, b + 1)) else None
    else None
  }

  /** The match of `p` that starts exactly at position `i` of `s`, if any. */
  function MatchAt(p: Pattern, s: string, i: nat): (r: Option<Match>)
    requires i <= |s|
    ensures r.Some? ==> r.value.start == i && Placed(s, r.value)
  {
    match p
    case Delimited(open, stop, close) => DelimitedAt(s, i, open, stop, close)
    case KeyValue(key) => KeyValueAt(s, i, key)
    case Link(open, words) => LinkAt(s, i, open, words)
  }

  /** A match begins with the pattern's leading literal, and its capture holds
      none of the pattern's stop characters. */
  lemma MatchShape(p: Pattern, s: string, i: nat)
    requires i <= |s| && MatchAt(p, s, i).Some?
    ensures OccursAt(s, Lead(p), i)
    ensures var m := MatchAt(p, s, i).value;
            forall k :: m.capStart <= k < m.capEnd ==> s[k] !in Stop(p)
  {
  }

  /** A capture of a link pattern is an absolute `http`/`https` URL that holds
      the pattern's words in order after its scheme. */
  lemma LinkShape(open: string, words: seq<string>, s: string, i: nat)
    requires i <= |s| && MatchAt(Link(open, words), s, i).Some?
    ensures var u := Capture(s, MatchAt(Link(open, words), s, i).value);
            0 < SchemeLength(u) && ContainsInOrder(u[SchemeLength(u)..], words)
  {
  }

  /** The match of `p` at each of the first `n` positions of `s`. */
  function Table(p: Pattern, s: string, n: nat): (t: seq<Option<Match>>)
    requires n <= |s| + 1
    ensures |t| == n && Anchored(t)
    ensures forall j :: 0 <= j < |t| && t[j].Some? ==> Placed(s, t[j].value)
  {
    if n == 0 then [] else Table(p, s, n - 1) + [MatchAt(p, s, n - 1)]
  }

  /** The table lists the match at each position. */
  lemma {:induction false} TableAt(p: Pattern, s: string, n: nat, j: nat)
    requires j < n <= |s| + 1
    ensures Table(p, s, n)[j] == MatchAt(p, s, j)
  {
    if j < n - 1 {
      TableAt(p, s, n - 1, j);
    }
  }

  /** The match of `p` at every position of `s`, from 0 to `|s|` inclusive.
      Searching only ever reads this table, so the search functions below do
      not depend on how a single match is computed. */
  function Matches(p: Pattern, s: string): (t: seq<Option<Match>>)
    ensures Positioned(s, t)
  {
    Table(p, s, |s| + 1)
  }

  /** `Matches` lists the match at each position. */
  lemma MatchesAt(p: Pattern, s: string, j: nat)
    requires j <= |s|
    ensures Matches(p, s)[j] == MatchAt(p, s, j)
  {
    TableAt(p, s, |s| + 1, j);
  }

  /** Every match of the table `t` starts at the position it is listed at. */
  predicate Anchored(t: seq<Option<Match>>) {
    forall j :: 0 <= j < |t| && t[j].Some? ==> t[j].value.start == j
  }

  /** `t` has one entry per position of `s`, and the entry at `j` is either
      no match or a match placed in `s` that starts at `j`. */
  predicate Positioned(s: string, t: seq<Option<Match>>) {
    && |t| == |s| + 1
    && Anchored(t)
    && forall j :: 0 <= j < |t| && t[j].Some? ==> Placed(s, t[j].value)
  }

  /** `m` is the table's match at the position where `m` starts. */
  predicate Found(t: seq<Option<Match>>, m: Match) {
    m.start < |t| && t[m.start] == Some(m)
  }

  /** `re.search` from position `i`: the first match of the table at or
      after `i`. */
  function SearchFrom(t: seq<Option<Match>>, i: nat): (r: Option<Match>)
    requires Anchored(t) && i < |t|
    ensures r.Some? ==> i <= r.value.start && Found(t, r.value)
    decreases |t| - i
  {
    match t[i]
    case Some(m) => Some(m)
    case None => if i + 1 == |t| then None else SearchFrom(t, i + 1)
  }

  /** `re.search(p, s)`. */
  function Search(p: Pattern, s: string): (r: Option<Match>)
    ensures r.Some? ==> r.value.start <= |s| && Placed(s, r.value)
  {
    SearchFrom(Matches(p, s), 0)
  }

  /** What `re.search` finds is a match of the pattern at the position where
      it starts. */
  lemma SearchIsMatch(p: Pattern, s: string)
    ensures Search(p, s).Some? ==> MatchAt(p, s, Search(p, s).value.start) == Search(p, s)
  {
    if Search(p, s).Some? {
      MatchesAt(p, s, Search(p, s).value.start);
    }
  }

  /** `re.search` finds the leftmost match: if the pattern matches at `j`, the
      search succeeds and stops at `j` or before it. */
  lemma SearchIsLeftmost(p: Pattern, s: string, j: nat)
    requires j <= |s| && MatchAt(p, s, j).Some?
    ensures Search(p, s).Some? && Search(p, s).value.start <= j
  {
    MatchesAt(p, s, j);
    SearchReaches(Matches(p, s), 0, j);
  }

  /** The key/value shape needs a `:` after its key, so it finds nothing in
      a text without one, whatever keys the text mentions. */
  lemma KeyValueNeedsColon(key: string, s: string)
    requires forall i :: 0 <= i < |s| ==> s[i] != ':'
    ensures Search(KeyValue(key), s).None?
  {
    forall j | 0 <= j <= |s|
      ensures MatchAt(KeyValue(key), s, j).None?
    {
      if OccursAt(s, key, j) {
        assert ValueQuote(s, j + |key|).None?;
      }
    }
    SearchIsMatch(KeyValue(key), s);
  }

  /** The search finds the leftmost match: it stops at or before any
      position where the table holds a match. */
  lemma {:induction false} SearchReaches(t: seq<Option<Match>>, i: nat, j: nat)
    requires Anchored(t) && i <= j < |t|
    requires t[j].Some?
    ensures SearchFrom(t, i).Some? && SearchFrom(t, i).value.start <= j
    decreases j - i
  {
    if t[i].None? {
      SearchReaches(t, i + 1, j);
    }
  }

  /** `ms` is a chain of non-empty matches of the table beginning at or after
      `i`, each one beginning at or after the end of the one before. */
  predicate Chain(t: seq<Option<Match>>, i: nat, ms: seq<Match>)
    decreases |ms|
  {
    || ms == []
    || (i <= ms[0].start < ms[0].end && Found(t, ms[0]) && Chain(t, ms[0].end, ms[1..]))
  }

  /** The `k`th link of a chain is a match at or after `i`, and it ends at
      or before the next link begins. */
  lemma {:induction false} ChainLink(t: seq<Option<Match>>, i: nat, ms: seq<Match>, k: nat)
    requires Chain(t, i, ms)
    requires k < |ms|
    ensures i <= ms[k].start && Found(t, ms[k])
    ensures k + 1 < |ms| ==> ms[k].end <= ms[k + 1].start
    decreases k
  {
    var rest := ms[1..];
    if k == 0 {
      if 1 < |ms| {
        assert rest[0] == ms[1];
      }
    } else {
      ChainLink(t, ms[0].end, rest, k - 1);
      assert rest[k - 1] == ms[k];
      if k + 1 < |ms| {
        assert rest[k] == ms[k + 1];
      }
    }
  }

  /** A chain read index by index: every link is a match at or after `i`, and
      consecutive links do not overlap. */
  lemma ChainInOrder(t: seq<Option<Match>>, i: nat, ms: seq<Match>)
    requires Chain(t, i, ms)
    ensures forall k :: 0 <= k < |ms| ==> i <= ms[k].start && Found(t, ms[k])
    ensures forall k :: 0 <= k < |ms| - 1 ==> ms[k].end <= ms[k + 1].start
  {
    forall k | 0 <= k < |ms|
      ensures i <= ms[k].start && Found(t, ms[k])
      ensures k + 1 < |ms| ==> ms[k].end <= ms[k + 1].start
    {
      ChainLink(t, i, ms, k);
    }
  }

  /** The matches `re.findall` visits from position `i`: left to right, each
      search resuming where the previous match ended. */
  function FindAllFrom(s: string, t: seq<Option<Match>>, i: nat): (ms: seq<Match>)
    requires Positioned(s, t) && i < |t|
    ensures Chain(t, i, ms)
    decreases |t| - i
  {
    match SearchFrom(t, i)
    case None => []
    case Some(m) =>
      var rest := FindAllFrom(s, t, m.end);
      assert ([m] + rest)[1..] == rest;
      [m] + rest
  }

  /** No capture of a match in the table holds a character of `stop`. */
  predicate Avoids(s: string, t: seq<Option<Match>>, stop: set<char>)
    requires Positioned(s, t)
  {
    forall j, x :: 0 <= j < |t| && t[j].Some? && t[j].value.capStart <= x < t[j].value.capEnd
      ==> s[x] !in stop
  }

  /** The captures of the matches of `p` avoid its stop characters. */
  lemma MatchesAvoidStop(p: Pattern, s: string)
    ensures Avoids(s, Matches(p, s), Stop(p))
  {
    var t := Matches(p, s);
    forall j, x | 0 <= j < |t| && t[j].Some? && t[j].value.capStart <= x < t[j].value.capEnd
      ensures s[x] !in Stop(p)
    {
      MatchesAt(p, s, j);
      MatchShape(p, s, j);
    }
  }

  /** The captures of the matches `re.findall` visits in the table `t`, in
      document order. */
  function FindAllIn(s: string, t: seq<Option<Match>>, stop: set<char>): (cs: seq<string>)
    requires Positioned(s, t) && Avoids(s, t, stop)
    ensures forall k :: 0 <= k < |cs| ==> cs[k] != []
    ensures forall k, c :: 0 <= k < |cs| && c in cs[k] ==> c !in stop
  {
    var ms := FindAllFrom(s, t, 0);
    ChainInOrder(t, 0, ms);
    var cs := seq(|ms|, k requires 0 <= k < |ms| => Capture(s, ms[k]));
    assert forall k, c :: 0 <= k < |cs| && c in cs[k] ==> c !in stop by {
      forall k, c | 0 <= k < |cs| && c in cs[k]
        ensures c !in stop
      {
        var x :| ms[k].capStart <= x < ms[k].capEnd && s[x] == c;
        assert t[ms[k].start] == Some(ms[k]);
      }
    }
    cs
  }

  /** `re.findall(p, s)` for a pattern with one group: the captures, in
      document order. */
  function FindAll(p: Pattern, s: string): (cs: seq<string>)
    ensures forall k :: 0 <= k < |cs| ==> cs[k] != []
    ensures forall k, c :: 0 <= k < |cs| && c in cs[k] ==> c !in Stop(p)
  {
    MatchesAvoidStop(p, s);
    FindAllIn(s, Matches(p, s), Stop(p))
  }

  /** The first match `re.findall` visits is the one `re.search` finds. */
  lemma FindAllStartsWithSearch(p: Pattern, s: string)
    ensures var ms := FindAllFrom(s, Matches(p, s), 0);
            (ms == [] <==> Search(p, s).None?)
            && (ms != [] ==> Search(p, s) == Some(ms[0]))
  {
  }

  /** Position `j` lies in the span of one of the matches `ms`. */
  predicate Covered(ms: seq<Match>, j: nat) {
    exists k :: 0 <= k < |ms| && ms[k].start <= j < ms[k].end
  }

  /** `re.findall` skips no match except one that overlaps a match it already
      took: every position where the pattern matches lies inside the span of
      a visited match. */
  lemma {:induction false} FindAllComplete(s: string, t: seq<Option<Match>>, i: nat, j: nat)
    requires Positioned(s, t)
    requires i <= j < |t|
    requires t[j].Some?
    ensures Covered(FindAllFrom(s, t, i), j)
    decreases |t| - i
  {
    SearchReaches(t, i, j);
    var m := SearchFrom(t, i).value;
    var rest := FindAllFrom(s, t, m.end);
    var ms := FindAllFrom(s, t, i);
    assert ms == [m] + rest;
    if j < m.end {
      assert ms[0].start <= j < ms[0].end;
    } else {
      FindAllComplete(s, t, m.end, j);
      var k :| 0 <= k < |rest| && rest[k].start <= j < rest[k].end;
      assert ms[k + 1] == rest[k];
    }
  }

  /** `re.findall(p, s)` visits a match covering every position where `p`
      matches. */
  lemma FindAllCovers(p: Pattern, s: string, j: nat)
    requires j <= |s| && MatchAt(p, s, j).Some?
    ensures Covered(FindAllFrom(s, Matches(p, s), 0), j)
  {
    MatchesAt(p, s, j);
    FindAllComplete(s, Matches(p, s), 0, j);
  }
}

=== FILE: pipeline.dfy ===
/** `DownloadThread.run` in the web application: the three phases of one
    download and the status records it publishes for the browser to poll. */
module Pipeline {
  import opened Wrappers
  import opened Http
  import opened FileInfo
  import opened Resolver
  import opened Transfer

  datatype Status = Processing | Downloading | Completed | Error

  /** A key of a status record: missing from the dictionary, present with
      `None`, or present with a value. */
  datatype Slot<T> = Absent | Null | Given(value: T)

  /** One dictionary stored in `download_status[download_id]`. */
  datatype Record = Record(status: Status, message: string,
                           filename: Slot<string>, filepath: Slot<string>, fileSize: Slot<nat>)

  /** What the thread runs against: the network (`session.get` for pages and
      for the file stream), `urllib.parse.unquote`, the clock, the configured
      download folder, how opening the target file fails if it does, and the
      `{size_mb:.2f}` rendering of a byte count. */
  datatype Env = Env(
    fetchPage: string -> Fetch,
    fetchStream: string -> Connect,
    unquote: string -> string,
    now: int,
    folder: string,
    openError: Option<string>,
    sizeText: nat -> string)

  const Extracting := Record(Processing, "Extracting file information from TeraBox...", Null, Null, Absent)

  const NoUrlMessage := "Could not find download URL. The link might be: password protected, expired, or require premium account."

  /** The `TypeError` Python raises when `get_download_url`, which takes the
      page URL only, is called with a second argument. */
  const ArityError := "TeraBoxDownloader.get_download_url() takes 2 positional arguments but 3 were given"

  function Finding(name: string): Record {
    Record(Processing, "Finding download URL... This may take a moment.", Given(name), Absent, Absent)
  }

  function Starting(name: string): Record {
    Record(Downloading, "Starting download...", Given(name), Absent, Absent)
  }

  function Done(name: string, saved: Saved, sizeText: nat -> string): Record {
    Record(Completed, "Download completed successfully! File size: " + sizeText(saved.fileSize) + " MB",
           Given(name), Given(saved.filepath), Given(saved.fileSize))
  }

  /** An error record holds the status and the message only. */
  function Failed(message: string): Record {
    Record(Error, message, Absent, Absent, Absent)
  }

  /** An error record is written whole and holds the status and the
      message only. */
  predicate Bare(r: Record) {
    r.status == Error ==> r.filename == Absent && r.filepath == Absent && r.fileSize == Absent
  }

  function Rank(s: Status): nat {
    match s
    case Processing => 0
    case Downloading => 1
    case Completed => 2
    case Error => 2
  }

  /** The records a run publishes only move forward: each record is of the
      same phase as the one before or a later one, and only the last record
      may be an outcome. */
  predicate Forward(h: seq<Record>) {
    forall i :: 0 <= i < |h| - 1 ==> Rank(h[i].status) < 2 && Rank(h[i].status) <= Rank(h[i + 1].status)
  }

  /** A record of an earlier or the same phase put in front of a history
      that moves forward gives one that still does. */
  lemma ForwardCons(r: Record, h: seq<Record>)
    requires Forward(h) && h != []
    requires Rank(r.status) < 2 && Rank(r.status) <= Rank(h[0].status)
    ensures Forward([r] + h)
  {
    var h' := [r] + h;
    assert forall i :: 0 < i < |h'| ==> h'[i] == h[i - 1];
  }

  /** In a history that moves forward, no record is of a later phase than
      any record after it, and the outcome, if any, is the last record. */
  lemma {:induction false} ForwardOrdered(h: seq<Record>, i: nat, j: nat)
    requires Forward(h) && i <= j < |h|
    ensures Rank(h[i].status) <= Rank(h[j].status)
    ensures i < j ==> h[i].status != Completed && h[i].status != Error
    decreases j - i
  {
    if i < j {
      ForwardOrdered(h, i + 1, j);
    }
  }

  /** Phase 1: `extract_file_info` on the share link. */
  function Phase1(env: Env, shareUrl: string): Result<FileInfo, string> {
    ExtractFileInfo(env.fetchPage(shareUrl), env.unquote, env.now)
  }

  /** Phase 2 as intended: the URL found on the page the share link led to. */
  function Phase2(env: Env, info: FileInfo): Option<string> {
    PageUrl(env.fetchPage(info.finalUrl))
  }

  /** Phase 3 succeeds: the stream connects, passes its checks and delivers
      everything, and the file can be opened. */
  predicate Phase3Succeeds(env: Env, url: string) {
    var conn := env.fetchStream(url);
    Precheck(conn).None? && env.openError.None? && conn.stream.breaksWith.None?
  }

  /** `DownloadThread.run` as written: the call of `get_download_url` passes
      two arguments to a method that takes one, so it raises `TypeError`
      before fetching anything, and the handler turns that into an
      "Unexpected error" record. No run ever completes or touches a file. */
  method RunAsWritten(env: Env, fs: FileSystem, shareUrl: string)
    returns (h: seq<Record>, fs': FileSystem, info: Result<FileInfo, string>)
    ensures info == Phase1(env, shareUrl)
    ensures fs' == fs
    ensures |h| >= 2 && h[0] == Extracting && Forward(h) && Bare(h[|h| - 1])
    ensures h[|h| - 1].status == Error
    ensures forall k :: 0 <= k < |h| ==> h[k].status != Completed
    ensures info.Failure? ==> h == [Extracting, Failed("Error extracting file info: " + info.error)]
    ensures info.Success? ==>
              h == [Extracting, Finding(info.value.filename), Failed("Unexpected error: " + ArityError)]
  {
    fs' := fs;
    info := Extract(env, shareUrl);
    if info.Failure? {
      ForwardCons(Extracting, [Failed("Error extracting file info: " + info.error)]);
      h := [Extracting] + [Failed("Error extracting file info: " + info.error)];
      return;
    }
    // The call itself raises: the arguments do not fit the signature.
    var outcome := Failed("Unexpected error: " + ArityError);
    ForwardCons(Finding(info.value.filename), [outcome]);
    ForwardCons(Extracting, [Finding(info.value.filename)] + [outcome]);
    h := [Extracting] + ([Finding(info.value.filename)] + [outcome]);
  }

  /** What phase 3 leaves for a file named `name` fetched from `url`. When
      every stage passes, the joined path holds everything the stream
      delivered, no other file changes and the record is the completion
      record with that path and its size on disk. Otherwise the joined path
      is gone and the record is a bare "Download failed" error. */
  predicate Delivered(env: Env, fs: FileSystem, name: string, url: string, last: Record, fs': FileSystem) {
    var path := Join(env.folder, name);
    var conn := env.fetchStream(url);
    if Phase3Succeeds(env, url) then
      && fs' == fs[path := Concat(conn.stream.chunks, |conn.stream.chunks|)]
      && last == Done(name, Saved(path, |fs'[path]|), env.sizeText)
    else
      && fs' == fs - {path}
      && last.status == Error && Bare(last)
      && "Download failed: " <= last.message
  }

  /** The records a run publishes and the file system it leaves, given what
      phases 1 and 2 produced: an extraction error ends the run after the
      first record; a missing or empty URL after "Finding download URL";
      otherwise "Starting download..." follows and phase 3 decides the last
      record. */
  predicate History(env: Env, fs: FileSystem, info: Result<FileInfo, string>, url: Option<string>,
                    h: seq<Record>, fs': FileSystem) {
    if info.Failure? then
      h == [Extracting, Failed("Error extracting file info: " + info.error)] && fs' == fs
    else if url.None? || url.value == "" then
      h == [Extracting, Finding(info.value.filename), Failed(NoUrlMessage)] && fs' == fs
    else
      && |h| == 4
      && h[..3] == [Extracting, Finding(info.value.filename), Starting(info.value.filename)]
      && Delivered(env, fs, info.value.filename, url.value, h[3], fs')
  }

  /** Phase 3 always ends in an outcome: a completed record exactly when
      every stage passes, a bare error record otherwise. */
  lemma DeliveredOutcome(env: Env, fs: FileSystem, name: string, url: string, last: Record, fs': FileSystem)
    requires Delivered(env, fs, name, url, last, fs')
    ensures last.status == Completed || last.status == Error
    ensures Bare(last)
    ensures last.status == Completed <==> Phase3Succeeds(env, url)
  {
  }

  /** The history of a run stopped for want of a URL moves forward. */
  lemma NoUrlForward(name: string)
    ensures Forward([Extracting, Finding(name), Failed(NoUrlMessage)])
  {
    ForwardCons(Finding(name), [Failed(NoUrlMessage)]);
    ForwardCons(Extracting, [Finding(name)] + [Failed(NoUrlMessage)]);
    assert [Extracting] + ([Finding(name)] + [Failed(NoUrlMessage)])
        == [Extracting, Finding(name), Failed(NoUrlMessage)];
  }

  /** The history of a run that reached phase 3 moves forward, whatever
      outcome it ends in. */
  lemma FullRunForward(name: string, last: Record)
    requires last.status == Completed || last.status == Error
    ensures Forward([Extracting, Finding(name), Starting(name), last])
  {
    ForwardCons(Starting(name), [last]);
    ForwardCons(Finding(name), [Starting(name)] + [last]);
    ForwardCons(Extracting, [Finding(name)] + ([Starting(name)] + [last]));
    assert [Extracting] + ([Finding(name)] + ([Starting(name)] + [last]))
        == [Extracting, Finding(name), Starting(name), last];
  }

  /** A run that reached phase 3 publishes four records that move forward
      and end in the phase's outcome. */
  lemma FullRunOutcome(env: Env, fs: FileSystem, name: string, url: string, h: seq<Record>, fs': FileSystem)
    requires |h| == 4 && h[..3] == [Extracting, Finding(name), Starting(name)]
    requires Delivered(env, fs, name, url, h[3], fs')
    ensures h[0] == Extracting && Forward(h) && Bare(h[3])
    ensures h[3].status == Completed || h[3].status == Error
    ensures h[3].status == Completed <==> Phase3Succeeds(env, url)
  {
    DeliveredOutcome(env, fs, name, url, h[3], fs');
    FullRunForward(name, h[3]);
    assert h == [Extracting, Finding(name), Starting(name), h[3]] by {
      assert h[..3] == [Extracting, Finding(name), Starting(name)];
    }
  }

  /** Every history a run can publish moves forward and ends in an outcome,
      and it ends in a completed record exactly when extraction succeeded, a
      URL was found and phase 3 succeeded on it. */
  lemma HistoryOutcome(env: Env, fs: FileSystem, info: Result<FileInfo, string>, url: Option<string>,
                       h: seq<Record>, fs': FileSystem)
    requires History(env, fs, info, url, h, fs')
    ensures |h| >= 2 && h[0] == Extracting && Forward(h) && Bare(h[|h| - 1])
    ensures h[|h| - 1].status == Completed || h[|h| - 1].status == Error
    ensures h[|h| - 1].status == Completed <==>
              info.Success? && url.Some? && url.value != "" && Phase3Succeeds(env, url.value)
  {
    if info.Failure? {
      ForwardCons(Extracting, [Failed("Error extracting file info: " + info.error)]);
      assert [Extracting] + [Failed("Error extracting file info: " + info.error)] == h;
    } else if url.None? || url.value == "" {
      NoUrlForward(info.value.filename);
    } else {
      FullRunOutcome(env, fs, info.value.filename, url.value, h, fs');
    }
  }

  /** Phase 3 and the record it ends with: `download_file` into the
      download folder, then the completion record or the "Download failed"
      error. */
  method Deliver(env: Env, fs: FileSystem, name: string, url: string)
    returns (last: Record, fs': FileSystem)
    ensures Delivered(env, fs, name, url, last, fs')
  {
    var result;
    fs', result := DownloadFile(fs, env.fetchStream(url), name, env.folder, env.openError);
    match result
    case Success(saved) =>
      last := Done(name, saved, env.sizeText);
    case Failure(e) =>
      last := Failed("Download failed: " + e);
  }

  /** Phase 1 as called: `extract_file_info` on the share link, whose name
      is always a safe one. */
  method Extract(env: Env, shareUrl: string) returns (info: Result<FileInfo, string>)
    ensures info == Phase1(env, shareUrl)
    ensures info.Success? ==> SafeName(info.value.filename)
  {
    info := Phase1(env, shareUrl);
  }

  /** Phase 2 as called: `get_download_url` on the page the share link led
      to. */
  method Locate(env: Env, info: FileInfo) returns (url: Option<string>)
    ensures url == Phase2(env, info)
    ensures url.Some? ==> Accepted(url.value) && |url.value| > 0
  {
    url := GetDownloadUrl(env.fetchPage(info.finalUrl));
  }

  /** What follows the URL search for a file named `name`: the records from
      "Finding download URL" on. A missing or empty URL ends the run with the
      "could not find" error; otherwise "Starting download..." is published
      and phase 3 runs on the URL. */
  method AfterSearch(env: Env, fs: FileSystem, name: string, url: Option<string>)
    returns (tail: seq<Record>, fs': FileSystem)
    ensures url.None? || url.value == "" ==> tail == [Finding(name), Failed(NoUrlMessage)] && fs' == fs
    ensures url.Some? && url.value != "" ==>
              && |tail| == 3 && tail[..2] == [Finding(name), Starting(name)]
              && Delivered(env, fs, name, url.value, tail[2], fs')
  {
    fs' := fs;
    if url.None? || url.value == "" {
      tail := [Finding(name), Failed(NoUrlMessage)];
      return;
    }
    var last;
    last, fs' := Deliver(env, fs, name, url.value);
    tail := [Finding(name), Starting(name), last];
  }

  /** The records a run publishes, and the file system it leaves, given what
      phases 1 and 2 produced. */
  method Publish(env: Env, fs: FileSystem, info: Result<FileInfo, string>, url: Option<string>)
    returns (h: seq<Record>, fs': FileSystem)
    ensures History(env, fs, info, url, h, fs')
    ensures |h| >= 2 && h[0] == Extracting && Forward(h) && Bare(h[|h| - 1])
    ensures h[|h| - 1].status == Completed || h[|h| - 1].status == Error
    ensures h[|h| - 1].status == Completed <==>
              info.Success? && url.Some? && url.value != "" && Phase3Succeeds(env, url.value)
  {
    if info.Failure? {
      fs' := fs;
      h := [Extracting, Failed("Error extracting file info: " + info.error)];
    } else {
      var tail;
      tail, fs' := AfterSearch(env, fs, info.value.filename, url);
      h := [Extracting] + tail;
      assert h[1..] == tail;
    }
    HistoryOutcome(env, fs, info, url, h, fs');
  }

  /** `DownloadThread.run` with `get_download_url` called on the final page
      URL alone, as evidently intended. Besides the records and the file
      system it returns what phases 1 and 2 produced. */
  method RunIntended(env: Env, fs: FileSystem, shareUrl: string)
    returns (h: seq<Record>, fs': FileSystem, info: Result<FileInfo, string>, url: Option<string>)
    ensures info == Phase1(env, shareUrl)
    ensures info.Success? ==> url == Phase2(env, info.value) && SafeName(info.value.filename)
    ensures info.Failure? ==> url.None?
    ensures History(env, fs, info, url, h, fs')
    ensures |h| >= 2 && h[0] == Extracting && Forward(h) && Bare(h[|h| - 1])
    ensures h[|h| - 1].status == Completed || h[|h| - 1].status == Error
    ensures h[|h| - 1].status == Completed <==> info.Success? && url.Some? && Phase3Succeeds(env, url.value)
  {
    info := Extract(env, shareUrl);
    url := None;
    if info.Success? {
      url := Locate(env, info.value);
    }
    h, fs' := Publish(env, fs, info, url);
  }
}

=== FILE: resolver.dfy ===
/** `TeraBoxDownloader.get_download_url`: fetch a page and pick the first
    URL-looking string in it that mentions one of four keywords. */
module Resolver {
  import opened Wrappers
  import opened Text
  import opened Http
  import opened Patterns

  /** The seven URL patterns, in the order they are tried. Only the last
      four insist on an `http`/`https` scheme. */
  const UrlPatterns: seq<Pattern> := [
    Delimited("\"downloadUrl\":\"", '"', "\""),
    Delimited("\"url\":\"", '"', "\""),
    KeyValue("downloadUrl"),
    Link("href=\"", ["download"]),
    Link("href=\"", ["file"]),
    Link("src=\"", ["stream"]),
    Link("\"", ["terabox", "stream"])
  ]

  /** The words a candidate must mention, in lower case, to be taken. */
  const Keywords: seq<string> := ["terabox", "download", "stream", "file"]

  /** `s.replace('\\/', '/')`: every escaped slash `\/` becomes `/`,
      scanning left to right without overlaps. */
  function Unescape(s: string): (r: string)
    ensures |r| <= |s|
    decreases |s|
  {
    if |s| >= 2 && s[0] == '\\' && s[1] == '/' then "/" + Unescape(s[2..])
    else if s == [] then []
    else [s[0]] + Unescape(s[1..])
  }

  /** How a JSON encoder may write a URL: every `/` escaped as `\/`. */
  function Escape(u: string): (r: string)
    ensures |u| <= |r|
    ensures u != [] ==> r[0] != '/'
    decreases |u|
  {
    if u == [] then []
    else (if u[0] == '/' then "\\/" else [u[0]]) + Escape(u[1..])
  }

  /** Unescaping undoes the escaping: a URL written with escaped slashes
      reads back as itself, whatever backslashes it held. */
  lemma {:induction false} UnescapeEscape(u: string)
    ensures Unescape(Escape(u)) == u
    decreases |u|
  {
    if u != [] {
      var rest := Escape(u[1..]);
      UnescapeEscape(u[1..]);
      if u[0] == '/' {
        assert Escape(u) == "\\/" + rest;
        assert Escape(u)[2..] == rest;
      } else {
        assert Escape(u) == [u[0]] + rest;
        assert Escape(u)[1..] == rest;
      }
    }
  }

  /** Unescaping works piece by piece wherever the cut does not split an
      escaped slash. */
  lemma {:induction false} UnescapeConcat(a: string, b: string)
    requires a == [] || b == [] || a[|a| - 1] != '\\' || b[0] != '/'
    ensures Unescape(a + b) == Unescape(a) + Unescape(b)
    decreases |a|
  {
    if a == [] {
      assert a + b == b;
    } else {
      var n := if |a| >= 2 && a[0] == '\\' && a[1] == '/' then 2 else 1;
      var head := if n == 2 then "/" else [a[0]];
      assert (a + b)[n..] == a[n..] + b;
      assert Unescape(a + b) == head + Unescape(a[n..] + b);
      assert Unescape(a) == head + Unescape(a[n..]);
      UnescapeConcat(a[n..], b);
      Regroup(head, Unescape(a[n..]), Unescape(b));
    }
  }

  /** Concatenation regroups. Stated once over an abstract element type so
      that the proofs using it see one equation, not the unfolded strings. */
  lemma Regroup<T>(x: seq<T>, y: seq<T>, z: seq<T>)
    ensures x + (y + z) == (x + y) + z
  {
  }

  /** A string holding neither `\` nor `/` is left as it is. */
  lemma {:induction false} UnescapePlain(w: string)
    requires forall i :: 0 <= i < |w| ==> w[i] != '\\' && w[i] != '/'
    ensures Unescape(w) == w
    decreases |w|
  {
    if w != [] {
      UnescapePlain(w[1..]);
    }
  }

  /** A word with neither `\` nor `/` survives unescaping wherever it occurs. */
  lemma UnescapeKeepsWord(s: string, w: string)
    requires w != []
    requires forall i :: 0 <= i < |w| ==> w[i] != '\\' && w[i] != '/'
    requires Contains(s, w)
    ensures Contains(Unescape(s), w)
  {
    var i: nat :| i <= |s| && OccursAt(s, w, i);
    OccursAtSlice(s, w, i);
    var a, c := s[..i], s[i + |w|..];
    assert s == a + (w + c);
    assert (w + c)[0] == w[0];
    UnescapeConcat(w, c);
    UnescapePlain(w);
    UnescapeConcat(a, w + c);
    Regroup(Unescape(a), w, Unescape(c));
    OccursInConcat(Unescape(a), w, Unescape(c));
  }

  /** The keyword test: the lower-cased candidate mentions a keyword. */
  predicate Accepted(u: string) {
    exists k :: 0 <= k < |Keywords| && Contains(Lower(u), Keywords[k])
  }

  /** An accepted candidate is never empty, so the caller's truth test on
      it cannot fail. */
  lemma AcceptedNonEmpty(u: string)
    requires Accepted(u)
    ensures |u| > 0
  {
    var k :| 0 <= k < |Keywords| && Contains(Lower(u), Keywords[k]);
    var i: nat :| i <= |Lower(u)| && OccursAt(Lower(u), Keywords[k], i);
  }

  /** The cleaned captures of the patterns `pats`, pattern by pattern and,
      within a pattern, in document order. */
  function Candidates(pats: seq<Pattern>, text: string): (cs: seq<string>)
    decreases |pats|
  {
    if pats == [] then [] else UnescapeAll(FindAll(pats[0], text)) + Candidates(pats[1..], text)
  }

  /** `Unescape` applied to each string. */
  function UnescapeAll(ms: seq<string>): (cs: seq<string>)
    ensures |cs| == |ms| && forall k :: 0 <= k < |ms| ==> cs[k] == Unescape(ms[k])
  {
    seq(|ms|, k requires 0 <= k < |ms| => Unescape(ms[k]))
  }

  /** Unescaping a list starts with unescaping its head. */
  lemma UnescapeAllCons(ms: seq<string>)
    requires ms != []
    ensures UnescapeAll(ms) == [Unescape(ms[0])] + UnescapeAll(ms[1..])
  {
    assert forall k :: 0 < k < |ms| ==> ms[k] == ms[1..][k - 1];
  }

  /** `cs[k]` is accepted and no candidate before it is. */
  predicate FirstAcceptedAt(cs: seq<string>, k: nat) {
    k < |cs| && Accepted(cs[k]) && forall j :: 0 <= j < k ==> !Accepted(cs[j])
  }

  /** The first accepted candidate, if any. */
  function FirstAccepted(cs: seq<string>): (r: Option<string>)
    ensures r.None? <==> forall k :: 0 <= k < |cs| ==> !Accepted(cs[k])
    ensures r.Some? ==> exists k: nat :: FirstAcceptedAt(cs, k) && cs[k] == r.value
    decreases |cs|
  {
    if cs == [] then None
    else if Accepted(cs[0]) then
      assert FirstAcceptedAt(cs, 0);
      Some(cs[0])
    else
      var r := FirstAccepted(cs[1..]);
      assert forall k :: 0 < k < |cs| ==> cs[k] == cs[1..][k - 1];
      if r.Some? then
        var k: nat :| FirstAcceptedAt(cs[1..], k) && cs[1..][k] == r.value;
        assert FirstAcceptedAt(cs, k + 1);
        r
      else
        r
  }

  /** The URL the page text yields: `get_download_url` tries the seven
      patterns in order. */
  method FindDownloadUrl(text: string) returns (r: Option<string>)
    ensures r == FirstAccepted(Candidates(UrlPatterns, text))
    ensures r.Some? ==> Accepted(r.value)
  {
    r := FirstCandidate(UrlPatterns, text);
  }

  /** The loops of `get_download_url`: for each pattern, for each capture in
      document order, unescape it and return it as soon as it passes the
      keyword test. */
  method FirstCandidate(pats: seq<Pattern>, text: string) returns (r: Option<string>)
    ensures r == FirstAccepted(Candidates(pats, text))
  {
    var k := 0;
    while k < |pats|
      invariant 0 <= k <= |pats|
      invariant FirstAccepted(Candidates(pats, text)) == FirstAccepted(Candidates(pats[k..], text))
    {
      var matches := FindAll(pats[k], text);
      var later := Candidates(pats[k + 1..], text);
      assert Candidates(pats[k..], text) == UnescapeAll(matches) + later by {
        assert pats[k..][0] == pats[k];
        assert pats[k..][1..] == pats[k + 1..];
      }
      var i := 0;
      while i < |matches|
        invariant 0 <= i <= |matches|
        invariant FirstAccepted(Candidates(pats, text)) == FirstAccepted(UnescapeAll(matches[i..]) + later)
      {
        var u := Unescape(matches[i]);
        var rest := UnescapeAll(matches[i + 1..]) + later;
        UnescapeAllCons(matches[i..]);
        assert matches[i..][1..] == matches[i + 1..];
        Regroup([u], UnescapeAll(matches[i + 1..]), later);
        FirstAcceptedCons(u, rest);
        if Accepted(u) {
          return Some(u);
        }
        i := i + 1;
      }
      assert UnescapeAll(matches[i..]) + later == later;
      k := k + 1;
    }
    r := None;
  }

  /** Looking at one candidate before the rest. */
  lemma FirstAcceptedCons(u: string, rest: seq<string>)
    ensures FirstAccepted([u] + rest) == if Accepted(u) then Some(u) else FirstAccepted(rest)
  {
    assert ([u] + rest)[0] == u;
    assert ([u] + rest)[1..] == rest;
  }

  /** The URL `get_download_url` settles on for a fetch outcome: none when
      the fetch or the status check fails, else the first accepted
      candidate of the page text. An accepted URL is never empty. */
  function PageUrl(fetch: Fetch): (r: Option<string>)
    ensures Get(fetch).Failure? ==> r.None?
    ensures r.Some? ==> Accepted(r.value) && |r.value| > 0
  {
    match Get(fetch)
    case Failure(_) => None
    case Success(page) =>
      var r := FirstAccepted(Candidates(UrlPatterns, page.text));
      if r.Some? then AcceptedNonEmpty(r.value); r else r
  }

  /** `get_download_url(page_url)` given the outcome of fetching the page. */
  method GetDownloadUrl(fetch: Fetch) returns (r: Option<string>)
    ensures r == PageUrl(fetch)
    ensures Get(fetch).Success? ==> r == FirstAccepted(Candidates(UrlPatterns, fetch.page.text))
  {
    match Get(fetch)
    case Failure(_) =>
      r := None;
    case Success(page) =>
      r := FindDownloadUrl(page.text);
  }

  /** Each capture `re.findall` returns is the capture of a match of the
      pattern somewhere in the text. */
  lemma FindAllCapture(p: Pattern, s: string, k: nat)
    requires k < |FindAll(p, s)|
    ensures exists j :: 0 <= j <= |s| && MatchAt(p, s, j).Some?
                        && FindAll(p, s)[k] == Capture(s, MatchAt(p, s, j).value)
  {
    var t := Matches(p, s);
    var ms := FindAllFrom(s, t, 0);
    ChainInOrder(t, 0, ms);
    var m := ms[k];
    assert t[m.start] == Some(m);
    MatchesAt(p, s, m.start);
  }

  /** A capture of a link pattern holds the pattern's first word. */
  lemma LinkCaptureMentions(open: string, words: seq<string>, text: string, k: nat)
    requires words != []
    requires k < |FindAll(Link(open, words), text)|
    ensures Contains(FindAll(Link(open, words), text)[k], words[0])
  {
    var p := Link(open, words);
    FindAllCapture(p, text, k);
    var j :| 0 <= j <= |text| && MatchAt(p, text, j).Some?
             && FindAll(p, text)[k] == Capture(text, MatchAt(p, text, j).value);
    var u := FindAll(p, text)[k];
    LinkShape(open, words, text, j);
    var sl := SchemeLength(u);
    InOrderContainsEach(u[sl..], words, 0);
    ContainsInSuffix(u, sl, words[0]);
  }

  /** A string that mentions a keyword, in lower case, passes the keyword
      test once unescaped. */
  lemma KeywordAccepted(u: string, kw: nat)
    requires kw < |Keywords| && Contains(u, Keywords[kw])
    ensures Accepted(Unescape(u))
  {
    var w := Keywords[kw];
    assert forall i :: 0 <= i < |w| ==> w[i] != '\\' && w[i] != '/' && !('A' <= w[i] <= 'Z');
    UnescapeKeepsWord(u, w);
    LowerKeepsLowerWord(Unescape(u), w);
  }

  /** A capture of one of the four link patterns always passes the keyword
      test, since the pattern itself demands a keyword after the scheme. */
  lemma LinkCaptureAccepted(n: nat, text: string, k: nat)
    requires 3 <= n < |UrlPatterns|
    requires k < |FindAll(UrlPatterns[n], text)|
    ensures Accepted(Unescape(FindAll(UrlPatterns[n], text)[k]))
  {
    var p := UrlPatterns[n];
    LinkCaptureMentions(p.open, p.words, text, k);
    var kw := if n == 3 then 1 else if n == 4 then 3 else if n == 5 then 2 else 0;
    assert p.words[0] == Keywords[kw];
    KeywordAccepted(FindAll(p, text)[k], kw);
  }

  /** A candidate from pattern `n` is among all candidates. */
  lemma {:induction false} CandidatesInclude(pats: seq<Pattern>, text: string, n: nat, k: nat)
    requires n < |pats| && k < |FindAll(pats[n], text)|
    ensures Unescape(FindAll(pats[n], text)[k]) in Candidates(pats, text)
    decreases n
  {
    var head := UnescapeAll(FindAll(pats[0], text));
    if n == 0 {
      assert head[k] in head;
    } else {
      assert pats[1..][n - 1] == pats[n];
      CandidatesInclude(pats[1..], text, n - 1, k);
    }
  }

  /** A page on which any of the four link patterns matches always yields a
      URL. */
  lemma LinkMatchYieldsUrl(text: string, n: nat, j: nat)
    requires 3 <= n < |UrlPatterns|
    requires j <= |text| && MatchAt(UrlPatterns[n], text, j).Some?
    ensures FirstAccepted(Candidates(UrlPatterns, text)).Some?
  {
    FindAllCovers(UrlPatterns[n], text, j);
    assert |FindAll(UrlPatterns[n], text)| > 0;
    LinkCaptureAccepted(n, text, 0);
    CandidatesInclude(UrlPatterns, text, n, 0);
  }
}

=== FILE: text.dfy ===
/** Character and string helpers, each with the meaning Python's `str` gives it. */
module Text {

  /** Python's `str.isspace()`. It is also what `\s` matches in a `str` regex
      and what an argument-less `str.strip()` removes. */
  predicate IsSpace(c: char) {
    var n := c as int;
    || (0x09 <= n <= 0x0D) || (0x1C <= n <= 0x20) || n == 0x85 || n == 0xA0
    || n == 0x1680 || (0x2000 <= n <= 0x200A) || n == 0x2028 || n == 0x2029
    || n == 0x202F || n == 0x205F || n == 0x3000
  }

  /** End of the white space starting at `i`: the first position at or
      after `i` that holds no white space (what greedy `\s*` consumes). */
  function SpaceEnd(s: string, i: nat): (j: nat)
    requires i <= |s|
    ensures i <= j <= |s|
    ensures forall k :: i <= k < j ==> IsSpace(s[k])
    ensures j == |s| || !IsSpace(s[j])
    decreases |s| - i
  {
    if i == |s| || !IsSpace(s[i]) then i else SpaceEnd(s, i + 1)
  }

  /** Start of the white space that ends at `j`, going no further back than
      `lo`. */
  function SpaceStart(s: string, lo: nat, j: nat): (e: nat)
    requires lo <= j <= |s|
    ensures lo <= e <= j
    ensures forall k :: e <= k < j ==> IsSpace(s[k])
    ensures e == lo || !IsSpace(s[e - 1])
    decreases j - lo
  {
    if j == lo || !IsSpace(s[j - 1]) then j else SpaceStart(s, lo, j - 1)
  }

  /** Python's `s.strip()`: the slice of `s` left once white space is removed
      from both ends. */
  function Strip(s: string): (r: string)
    ensures |r| <= |s|
    ensures r == [] <==> forall i :: 0 <= i < |s| ==> IsSpace(s[i])
    ensures r != [] ==> !IsSpace(r[0]) && !IsSpace(r[|r| - 1])
    ensures var a := SpaceEnd(s, 0);
              a + |r| <= |s| && r == s[a..a + |r|]
              && forall i :: a + |r| <= i < |s| ==> IsSpace(s[i])
  {
    var a := SpaceEnd(s, 0);
    var e := SpaceStart(s, a, |s|);
    var r := s[a..e];
    assert r != [] ==> r[0] == s[a] && r[|r| - 1] == s[e - 1];
    r
  }

  /** `w` occurs in `s` starting at position `i`. */
  predicate OccursAt(s: string, w: string, i: nat) {
    i + |w| <= |s| && AgreesFrom(s, w, i, 0)
  }

  /** The characters of `w` from index `k` on agree with those of `s` from
      `i + k` on. */
  predicate AgreesFrom(s: string, w: string, i: nat, k: nat)
    requires i + |w| <= |s| && k <= |w|
    decreases |w| - k
  {
    k == |w| || (s[i + k] == w[k] && AgreesFrom(s, w, i, k + 1))
  }

  /** Agreement read index by index. */
  lemma {:induction false} AgreesFromEach(s: string, w: string, i: nat, k: nat)
    requires i + |w| <= |s| && k <= |w|
    ensures AgreesFrom(s, w, i, k) <==> forall j :: k <= j < |w| ==> s[i + j] == w[j]
    decreases |w| - k
  {
    if k < |w| {
      AgreesFromEach(s, w, i, k + 1);
    }
  }

  /** An occurrence read position by position in `s`. */
  lemma OccursAtEach(s: string, w: string, i: nat)
    requires OccursAt(s, w, i)
    ensures forall q :: i <= q < i + |w| ==> s[q] == w[q - i]
  {
    AgreesFromEach(s, w, i, 0);
    forall q | i <= q < i + |w|
      ensures s[q] == w[q - i]
    {
      assert s[i + (q - i)] == w[q - i];
    }
  }

  /** A word occurs where it is placed between two strings. */
  lemma OccursInConcat(a: string, w: string, b: string)
    ensures OccursAt(a + w + b, w, |a|)
  {
    var s := a + w + b;
    assert s[|a|..|a| + |w|] == w;
    OccursAtSlice(s, w, |a|);
  }

  /** An occurrence is a slice equal to the word. */
  lemma OccursAtSlice(s: string, w: string, i: nat)
    requires i + |w| <= |s|
    ensures OccursAt(s, w, i) <==> s[i..i + |w|] == w
  {
    AgreesFromEach(s, w, i, 0);
    if forall j :: 0 <= j < |w| ==> s[i + j] == w[j] {
      assert s[i..i + |w|] == w;
    }
  }

  /** Python's `w in s` for strings: `w` occurs in `s` as a contiguous slice. */
  predicate Contains(s: string, w: string) {
    exists i: nat :: i <= |s| && OccursAt(s, w, i)
  }

  /** The words `ws` occur in `s` one after another, without overlapping:
      what `[^"]*?w1[^"]*?w2...` asks of a quote-free run of text. */
  predicate ContainsInOrder(s: string, ws: seq<string>)
    decreases |ws|
  {
    || ws == []
    || exists i: nat :: i <= |s| && OccursAt(s, ws[0], i) && ContainsInOrder(s[i + |ws[0]|..], ws[1..])
  }

  /** Every word of an in-order occurrence occurs on its own. */
  lemma {:induction false} InOrderContainsEach(s: string, ws: seq<string>, k: nat)
    requires ContainsInOrder(s, ws)
    requires k < |ws|
    ensures Contains(s, ws[k])
    decreases |ws|
  {
    var i: nat :| i <= |s| && OccursAt(s, ws[0], i) && ContainsInOrder(s[i + |ws[0]|..], ws[1..]);
    if k > 0 {
      var w := ws[k];
      assert ws[1..][k - 1] == w;
      InOrderContainsEach(s[i + |ws[0]|..], ws[1..], k - 1);
      ContainsInSuffix(s, i + |ws[0]|, w);
    }
  }

  /** A later part of a string contains what it contains. */
  lemma ContainsInSuffix(s: string, n: nat, w: string)
    requires n <= |s|
    requires Contains(s[n..], w)
    ensures Contains(s, w)
  {
    var j: nat :| j <= |s[n..]| && OccursAt(s[n..], w, j);
    OccursAtSlice(s[n..], w, j);
    assert s[n..][j..j + |w|] == s[n + j..n + j + |w|];
    OccursAtSlice(s, w, n + j);
  }

  /** The ASCII part of Python's `str.lower()`. */
  function LowerChar(c: char): char {
    if 'A' <= c <= 'Z' then (c as int + 32) as char else c
  }

  /** `s.lower()` for ASCII letters; other characters are kept. */
  function Lower(s: string): (r: string)
    ensures |r| == |s|
  {
    seq(|s|, i requires 0 <= i < |s| => LowerChar(s[i]))
  }

  /** A word written in lower case (no ASCII capital) is found in the lowered
      string wherever it occurs in the original. */
  lemma LowerKeepsLowerWord(s: string, w: string)
    requires forall k :: 0 <= k < |w| ==> !('A' <= w[k] <= 'Z')
    requires Contains(s, w)
    ensures Contains(Lower(s), w)
  {
    var i: nat :| i <= |s| && OccursAt(s, w, i);
    var l := Lower(s);
    AgreesFromEach(s, w, i, 0);
    AgreesFromEach(l, w, i, 0);
    assert forall k :: 0 <= k < |w| ==> l[i + k] == LowerChar(s[i + k]) == w[k];
    assert OccursAt(l, w, i);
  }

  predicate IsDigit(c: char) {
    '0' <= c <= '9'
  }

  /** The decimal digit for `d`. */
  function Digit(d: nat): (c: char)
    requires d < 10
    ensures IsDigit(c) && c as int - '0' as int == d
  {
    ('0' as int + d) as char
  }

  /** Python's `str(n)` for a natural number. */
  function NatToDecimal(n: nat): (r: string)
    ensures |r| > 0
    ensures forall i :: 0 <= i < |r| ==> IsDigit(r[i])
    ensures n > 0 ==> r[0] != '0'
  {
    if n < 10 then [Digit(n)] else NatToDecimal(n / 10) + [Digit(n % 10)]
  }

  /** Python's `str(n)` for any integer. */
  function IntToDecimal(n: int): (r: string)
    ensures |r| > 0
    ensures forall i :: 0 <= i < |r| ==> IsDigit(r[i]) || (i == 0 && r[i] == '-')
    ensures r[0] == '-' <==> n < 0
    ensures n < 0 ==> |r| > 1 && r[1] != '0'
    ensures n > 0 ==> r[0] != '0'
    ensures n == 0 ==> r == "0"
  {
    if n < 0 then "-" + NatToDecimal(-n) else NatToDecimal(n)
  }

  /** The number a string of decimal digits denotes. */
  function DecimalValue(s: string): nat
    requires forall i :: 0 <= i < |s| ==> IsDigit(s[i])
  {
    if s == [] then 0
    else
      assert IsDigit(s[|s| - 1]);
      DecimalValue(s[..|s| - 1]) * 10 + (s[|s| - 1] as int - '0' as int)
  }

  /** Reading back a rendered number gives the number: the rendering loses nothing. */
  lemma {:induction false} DecimalRoundTrip(n: nat)
    ensures DecimalValue(NatToDecimal(n)) == n
  {
    if n >= 10 {
      var r := NatToDecimal(n);
      assert r[..|r| - 1] == NatToDecimal(n / 10);
      DecimalRoundTrip(n / 10);
    }
  }

  /** Reading back the rendering of any integer gives the integer: the
      digits after an optional minus sign denote its magnitude. */
  lemma IntDecimalRoundTrip(n: int)
    ensures n < 0 ==> DecimalValue(IntToDecimal(n)[1..]) == -n
    ensures n >= 0 ==> DecimalValue(IntToDecimal(n)) == n
  {
    if n < 0 {
      assert IntToDecimal(n)[1..] == NatToDecimal(-n);
      DecimalRoundTrip(-n);
    } else {
      DecimalRoundTrip(n);
    }
  }

  /** Digits with single underscores between them, as `int()` accepts them. */
  predicate IsDigitGroups(s: string) {
    && |s| > 0 && IsDigit(s[0]) && IsDigit(s[|s| - 1])
    && (forall i :: 0 <= i < |s| ==> IsDigit(s[i]) || s[i] == '_')
    && (forall i :: 0 <= i < |s| - 1 ==> s[i] == '_' ==> s[i + 1] != '_')
  }

  /** `int(s)` accepts the form in base 10: optional white space around an
      optional sign and a group of ASCII digits. */
  predicate IsIntLiteral(s: string) {
    var t := Strip(s);
    if |t| > 0 && (t[0] == '+' || t[0] == '-') then IsDigitGroups(t[1..]) else IsDigitGroups(t)
  }

  /** The most digits `int()` converts from a decimal string, CPython's
      default `sys.int_info.default_max_str_digits` from release 3.11 on. */
  const MaxStrDigits := 4300

  /** The number of ASCII digits in `s`; signs, underscores and white space
      are not counted. */
  function DigitCount(s: string): (n: nat)
    ensures n <= |s|
    ensures n == |s| <==> forall i :: 0 <= i < |s| ==> IsDigit(s[i])
  {
    if s == [] then 0
    else DigitCount(s[..|s| - 1]) + (if IsDigit(s[|s| - 1]) then 1 else 0)
  }

  /** A non-empty run of plain digits is an integer literal with as many
      digits as characters. */
  lemma PlainDigitsLiteral(v: string)
    requires |v| > 0 && forall i :: 0 <= i < |v| ==> IsDigit(v[i])
    ensures Strip(v) == v && IsIntLiteral(v) && DigitCount(Strip(v)) == |v|
  {
    assert Strip(v) == v by {
      assert SpaceEnd(v, 0) == 0;
      assert SpaceStart(v, 0, |v|) == |v|;
    }
    assert IsDigitGroups(v);
  }

  /** `int(s)` succeeds in base 10: the form is accepted and it has no more
      digits than the conversion limit allows. */
  predicate ParsesAsInt(s: string) {
    IsIntLiteral(s) && DigitCount(Strip(s)) <= MaxStrDigits
  }
}

=== FILE: transfer.dfy ===
/** `TeraBoxDownloader.download_file`: stream a URL into a file in the
    download folder and report the number of bytes written. */
module Transfer {
  import opened Wrappers
  import opened Text
  import opened Http

  newtype byte = b: int | 0 <= b < 256

  /** The files of the download folder's file system, by path. */
  type FileSystem = map<string, seq<byte>>

  /** `os.path.join(a, b)` on POSIX: an absolute `b` replaces `a`; otherwise a
      `/` is put between them unless `a` is empty or already ends in one. */
  function Join(a: string, b: string): (r: string)
    ensures |b| <= |r| && r[|r| - |b|..] == b
    ensures b != [] && b[0] == '/' ==> r == b
    ensures (b == [] || b[0] != '/') ==> |a| <= |r| && r[..|a|] == a
  {
    if b != [] && b[0] == '/' then b
    else if a == [] || a[|a| - 1] == '/' then a + b
    else a + "/" + b
  }

  /** The last `/` before position `n`, or -1 when there is none. */
  function LastSlashBefore(p: string, n: nat): (i: int)
    requires n <= |p|
    ensures -1 <= i < n
    ensures i >= 0 ==> p[i] == '/'
    ensures forall j :: i < j < n ==> p[j] != '/'
  {
    if n == 0 then -1 else if p[n - 1] == '/' then n - 1 else LastSlashBefore(p, n - 1)
  }

  /** `os.path.basename(p)`: what follows the last `/`. */
  function Basename(p: string): (r: string)
    ensures |r| <= |p| && r == p[|p| - |r|..]
    ensures forall j :: 0 <= j < |r| ==> r[j] != '/'
  {
    p[LastSlashBefore(p, |p|) + 1..]
  }

  /** A non-empty name without `/` joined to any folder has the name itself
      as its base name. */
  lemma JoinedNameIsBasename(folder: string, name: string)
    requires name != []
    requires forall j :: 0 <= j < |name| ==> name[j] != '/'
    ensures Basename(Join(folder, name)) == name
  {
    var p := Join(folder, name);
    var start := |p| - |name|;
    assert p[start..] == name;
    assert forall j :: start <= j < |p| ==> p[j] == name[j - start];
    assert start == 0 || p[start - 1] == '/';
    var i := LastSlashBefore(p, |p|);
    assert i == start - 1;
  }

  /** What the server sends back for the streaming GET: the URL after
      redirects, the status line, the `content-length` header if present, the
      chunks `iter_content` yields and, if the stream breaks off after them,
      the text of the error it raises. */
  datatype Stream = Stream(
    url: string, status: int, reason: string,
    contentLength: Option<string>,
    chunks: seq<seq<byte>>,
    breaksWith: Option<string>)

  /** The outcome of `session.get(url, stream=True)`. */
  datatype Connect = Connected(stream: Stream) | ConnectFailed(error: string)

  /** The dictionary `download_file` returns on success. */
  datatype Saved = Saved(filepath: string, fileSize: nat)

  /** The first `n` chunks, one after the other: what the file holds once they
      are written. */
  function Concat(cs: seq<seq<byte>>, n: nat): (r: seq<byte>)
    requires n <= |cs|
  {
    if n == 0 then [] else Concat(cs, n - 1) + cs[n - 1]
  }

  /** The running count `downloaded`: the lengths of the non-empty chunks
      among the first `n`. */
  function NonEmptyTotal(cs: seq<seq<byte>>, n: nat): (t: nat)
    requires n <= |cs|
  {
    if n == 0 then 0
    else NonEmptyTotal(cs, n - 1) + (if cs[n - 1] != [] then |cs[n - 1]| else 0)
  }

  /** Skipping empty chunks loses nothing: the count equals the length of
      everything the stream delivered. */
  lemma {:induction false} TotalIsConcatLength(cs: seq<seq<byte>>, n: nat)
    requires n <= |cs|
    ensures NonEmptyTotal(cs, n) == |Concat(cs, n)|
  {
    if n > 0 {
      TotalIsConcatLength(cs, n - 1);
    }
  }

  /** The text of the `ValueError` that `int()` raises on a malformed header.
      CPython cuts the quoted value to 200 characters; Python quotes it with
      `repr`, plain single quotes are used here. */
  function IntError(v: string): (e: string)
    ensures |v| <= 198 ==> |v| + 1 <= |e| && e[|e| - |v| - 1..|e| - 1] == v && e[|e| - 1] == '\''
    ensures |v| > 198 ==> |e| == 240 && e[41..] == v[..199]
  {
    var quoted := "'" + v + "'";
    "invalid literal for int() with base 10: " + (if |quoted| <= 200 then quoted else quoted[..200])
  }

  /** The text of the `ValueError` that `int()` raises on a well-formed
      header with more digits than `MaxStrDigits`. */
  function LimitError(digits: nat): (e: string)
    ensures "Exceeds the limit (" <= e
  {
    "Exceeds the limit (" + NatToDecimal(MaxStrDigits) + " digits) for integer string conversion: value has "
    + NatToDecimal(digits) + " digits; use sys.set_int_max_str_digits() to increase the limit"
  }

  /** How far the attempt got before it stopped: whether the file had been
      opened for writing when the exception came. */
  datatype Attempt = Attempt(fileOpened: bool, outcome: Result<nat, string>)

  /** The checks before the file is opened: the connection, the status
      check and the `content-length` header's `int()`. */
  function Precheck(conn: Connect): (e: Option<string>)
    ensures e.None? <==> && conn.Connected?
                         && !(400 <= conn.stream.status < 600)
                         && (conn.stream.contentLength.Some? ==> ParsesAsInt(conn.stream.contentLength.value))
    ensures conn.ConnectFailed? ==> e == Some(conn.error)
    ensures conn.Connected? && e.Some? && !(400 <= conn.stream.status < 600) ==>
              conn.stream.contentLength.Some? && var v := conn.stream.contentLength.value;
              e == Some(if IsIntLiteral(v) then LimitError(DigitCount(Strip(v))) else IntError(v))
  {
    match conn
    case ConnectFailed(err) => Some(err)
    case Connected(s) =>
      match StatusError(s.status, s.reason, s.url)
      case Some(err) => Some(err)
      case None =>
        match s.contentLength
        case Some(v) =>
          if !IsIntLiteral(v) then Some(IntError(v))
          else if DigitCount(Strip(v)) > MaxStrDigits then Some(LimitError(DigitCount(Strip(v))))
          else None
        case None => None
  }

  /** A `content-length` of more than `MaxStrDigits` plain digits on a good
      response stops the download before the file is opened, with the
      digit-limit error naming its length. */
  lemma LongLengthRejected(conn: Connect)
    requires conn.Connected? && !(400 <= conn.stream.status < 600)
    requires conn.stream.contentLength.Some?
    requires var v := conn.stream.contentLength.value;
             |v| > MaxStrDigits && forall i :: 0 <= i < |v| ==> IsDigit(v[i])
    ensures Precheck(conn) == Some(LimitError(|conn.stream.contentLength.value|))
  {
    PlainDigitsLiteral(conn.stream.contentLength.value);
  }

  /** The body of the `try` in `download_file`, up to the point it returns or
      raises. The file at `filepath` is opened (`open(filepath, 'wb')`, which
      empties it) unless the open fails with `openError`; every non-empty
      chunk is appended and counted. The file system left behind is the one
      at the moment the attempt stopped. */
  method Receive(fs: FileSystem, conn: Connect, filepath: string, openError: Option<string>)
    returns (fs': FileSystem, a: Attempt)
    ensures !a.fileOpened ==> fs' == fs && a.outcome.Failure?
    ensures a.fileOpened <==> Precheck(conn).None? && openError.None?
    ensures a.fileOpened ==> (&& fs' == fs[filepath := Concat(conn.stream.chunks, |conn.stream.chunks|)]
                              && (a.outcome.Success? <==> conn.stream.breaksWith.None?)
                              && (a.outcome.Failure? ==> a.outcome.error == conn.stream.breaksWith.value))
    ensures a.outcome.Success? ==> && a.outcome.value == |Concat(conn.stream.chunks, |conn.stream.chunks|)|
                                   && a.outcome.value == NonEmptyTotal(conn.stream.chunks, |conn.stream.chunks|)
    ensures Precheck(conn).Some? ==> a.outcome == Failure(Precheck(conn).value)
    ensures Precheck(conn).None? && openError.Some? ==> a.outcome == Failure(openError.value)
  {
    fs' := fs;
    var pre := Precheck(conn);
    if pre.Some? {
      return fs', Attempt(false, Failure(pre.value));
    }
    if openError.Some? {
      return fs', Attempt(false, Failure(openError.value));
    }
    var chunks := conn.stream.chunks;
    fs' := fs[filepath := []];
    var downloaded := 0;
    var i := 0;
    while i < |chunks|
      invariant 0 <= i <= |chunks|
      invariant fs' == fs[filepath := Concat(chunks, i)]
      invariant downloaded == NonEmptyTotal(chunks, i)
    {
      var chunk := chunks[i];
      if chunk != [] {
        fs' := fs'[filepath := fs'[filepath] + chunk];
        downloaded := downloaded + |chunk|;
      } else {
        assert Concat(chunks, i + 1) == Concat(chunks, i) + chunk == Concat(chunks, i);
      }
      i := i + 1;
    }
    TotalIsConcatLength(chunks, |chunks|);
    match conn.stream.breaksWith
    case Some(err) =>
      a := Attempt(true, Failure(err));
    case None =>
      a := Attempt(true, Success(downloaded));
  }

  /** `download_file(url, filename, folder)`: the file is saved at
      `os.path.join(folder, filename)` and its size is the number of bytes
      written. Whatever the exception, the handler deletes whatever file is at
      the target path, even one that was there before and that the attempt
      never opened. */
  method DownloadFile(fs: FileSystem, conn: Connect, filename: string, folder: string,
                      openError: Option<string>)
    returns (fs': FileSystem, r: Result<Saved, string>)
    ensures r.Success? <==> Precheck(conn).None? && openError.None? && conn.stream.breaksWith.None?
    ensures r.Success? ==> && r.value.filepath == Join(folder, filename)
                           && fs' == fs[Join(folder, filename) := Concat(conn.stream.chunks, |conn.stream.chunks|)]
                           && r.value.fileSize == |fs'[r.value.filepath]|
                           && r.value.fileSize == NonEmptyTotal(conn.stream.chunks, |conn.stream.chunks|)
    ensures r.Failure? ==> fs' == fs - {Join(folder, filename)}
    ensures conn.ConnectFailed? ==> r == Failure(conn.error) && Join(folder, filename) !in fs'
    ensures Precheck(conn).Some? ==> r == Failure(Precheck(conn).value)
    ensures Precheck(conn).None? && openError.Some? ==> r == Failure(openError.value)
    ensures Precheck(conn).None? && openError.None? && conn.stream.breaksWith.Some? ==>
              r == Failure(conn.stream.breaksWith.value)
  {
    var filepath := Join(folder, filename);
    var a;
    fs', a := Receive(fs, conn, filepath, openError);
    match a.outcome
    case Success(size) =>
      r := Success(Saved(filepath, size));
    case Failure(err) =>
      fs' := fs - {filepath};
      r := Failure(err);
  }
}

=== FILE: wrappers.dfy ===
/** Failure-carrying datatypes shared by the whole model. */
module Wrappers {

  /** A value that may be missing: Python's `None` versus a value. */
  datatype Option<+T> = None | Some(value: T)

  /** The outcome of an operation that catches its own exceptions: the value,
      or the text of the exception (`str(e)`). */
  datatype Result<+T, +E> = Success(value: T) | Failure(error: E)
}
